=== FILE: README.md ===
# Lead-tracking CRM: a Dafny model

This project models the rule set of a small Next.js/Prisma CRM in which
sales leads move through four stages (NEW, CONTACTED, CONVERTED, LOST) and
every contact with a lead is logged as a conversation that may carry a
follow-up reminder. It covers:

- the request handlers of the lead store, in both variants:
  - `src/app/api/leads/route.ts`, modelled as `LeadApi`;
  - `Routes/Lead.ts`, modelled as `LeadRoutes`;
- the request handlers of the conversation log, in both variants:
  - `src/app/api/conversations/route.ts`, modelled as `ConversationApi`;
  - `Routes/Conversations.ts`, modelled as `ConversationRoutes`;
- the prefix search (`Search`);
- reminders on the client:
  - `Reminders`: the 30-day upcoming-reminder list of the notification bell;
  - `FollowUp`: the "next follow-up" of the lead cards;
  - `Dates`: the dd/mm/yyyy and Today/Tomorrow formatting;
- the pure list and form transformations of the client:
  - `LeadForm`, `Board`, `Pipeline`, `LeadsHook`, `ManageLeads` and `ConversationModal`.

The database becomes an in-memory `Db.Store`, made of two tables kept as
sequences in insertion order. `Db.Valid` says that primary keys are unique
and that every conversation's `leadId` names an existing lead; every
handler is proved to keep it.

Each handler is a pure function from the store and the request to the next
store and a `Reply`:

| reply | status |
|---|---|
| `Ok` | 200 |
| `Created` | 201 |
| `BadRequest` | 400 |
| `NotFound` | 404 |
| `ServerError` | 500 |

Things the handlers get from outside are inputs of the model:

- An exception that the database raises, whether or not a `catch` turns it into a reply, is a `ServerError`. The causes modelled are an enum value outside the four stages, an unknown foreign key, an update or delete of a missing row, and an Invalid Date.
- A body that is not JSON is `None`.
- The key the database assigns is the `newId` parameter.
- The clock is the `now` parameter.
- `Date.parse` of a string is carried with the string as `Crm.DateInput`.

Supporting modules:

- `Text`:
  - ECMAScript whitespace and `trim`;
  - ASCII `toLowerCase`;
  - `startsWith` and `includes`;
  - `split` and `join`;
  - code-point string order.
- `Email`: the address check `^[^\s@]+@[^\s@]+\.[^\s@]+$`, written as a character-level predicate. It is proved equivalent to a direct statement of the regular expression's three runs.
- `Sorting`: a stable insertion sort used for every `orderBy` and `Array.prototype.sort`, plus `take`/`slice` and `filter`.

Behaviours of the code worth noting:

- The search accepts a query made only of whitespace. Only a missing or empty `q` is refused.
- A conversation posted for a lead that does not exist gets a 500 from the foreign-key failure, not a 404.
- `Routes/Lead.ts` lists leads by `updatedAt`, not by `createdAt`.
- In `Routes/Lead.ts`, GET serves one lead only for a non-empty `?id=`. An empty `?id=` lists like no id at all.
- A GET of `Routes/Lead.ts` with a `?stage=` outside the enum makes the query throw. Nothing catches the error, so the answer is the framework's plain 500.
- The conversations joined into a lead (`include: { conversations: true }`) come in table order, not newest first.

## Model

| member | source | states |
|---|---|---|
| Email.ValidIffMatches | src/app/api/leads/route.ts:7-9 | the character-level check (no whitespace, exactly one '@' with text before it, an inner '.' after it) accepts exactly the strings the regular expression matches |
| Email.ValidIsTrimmed | src/app/api/leads/route.ts:7-9 | a valid address is never blank and `trim` leaves it unchanged |
| Email.ValidHasOneAt | src/app/api/leads/route.ts:7-9 | a valid address has exactly one '@' |
| Email.Examples | src/components/LeadFormModal.tsx:10-12 | the same predicate accepts `a@b.com` |
| Email.NoDotExample | src/components/LeadFormModal.tsx:10-12 | the predicate refuses `a@bcom`, whose domain has no dot |
| Email.RejectedExamples | src/components/LeadFormModal.tsx:10-12 | the predicate refuses an empty local part, a trailing dot and an embedded space |
| LeadApi.CreateError | src/app/api/leads/route.ts:35-65 | the message is the first failing check in the order name, email present, email valid, company, stage; one iff per message; a whitespace-only field counts as missing; none iff every check passes |
| LeadApi.TrimmedOrEmpty | src/app/api/leads/route.ts:72-73 | `x?.trim() \|\| ""`: a present field gives its trim, an absent one gives "", and the result is always trimmed |
| LeadApi.NewLead | src/app/api/leads/route.ts:67-76 | the created row has trimmed non-blank name and company, a valid email, an enum stage, linkedIn "" / notes "" / tags [] by default, and a follow-up date exactly when one was supplied and parses; linkedIn is the trim of what was sent, or "", and notes likewise |
| LeadApi.Post | src/app/api/leads/route.ts:21-98 | non-JSON gives 400; a failing check gives 400 with its message and no write; otherwise 201, and the one row appended is exactly the lead built from the body, with an enum stage and a valid email; the store stays valid |
| LeadApi.AppendLeadKeepsValid | src/app/api/leads/route.ts:67-78 | appending a lead with a fresh key keeps keys unique and foreign keys resolving |
| LeadApi.Patch | src/app/api/leads/route.ts:121-132 | each field absent from the body keeps its stored value, each present field is written; nextFollowUp is kept when the body gives none and set to the parsed date otherwise |
| LeadApi.NextFollowUp | src/app/api/leads/route.ts:131 | an absent or empty date keeps the stored follow-up; a given date replaces it with that date |
| LeadApi.PatchEmptyBody | src/app/api/leads/route.ts:121-132 | an update whose body names no field leaves every column except the update time as it was |
| LeadApi.PatchIdempotent | src/app/api/leads/route.ts:121-132 | applying the same update body twice gives the row that applying it once gave |
| LeadApi.Put | src/app/api/leads/route.ts:100-144 | no id gives 400, an unknown id 404, both with the store unchanged; success changes only the row with that id, to `Patch` of it, and keeps its follow-up date when none is sent |
| LeadApi.ReplaceLeadKeepsValid | src/app/api/leads/route.ts:121-134 | overwriting a row with one of the same key keeps the store valid |
| LeadApi.Delete | src/app/api/leads/route.ts:146-184 | no id gives 400, an unknown id 404 with no change; success answers "Lead and associated conversations deleted successfully", and the store becomes exactly the cascade: the lead and every conversation pointing at it are removed, every other lead and conversation is kept, and nothing is added; the store stays valid |
| Db.DeleteCascade | src/app/api/leads/route.ts:166-172 | after the cascade no row has the id, no conversation points at it, and every other row survives |
| Db.DeleteCascadeKeepsValid | src/app/api/leads/route.ts:166-172 | the cascade leaves no orphan conversation and keeps keys unique |
| LeadApi.List | src/app/api/leads/route.ts:12-18 | every lead exactly once, newest `createdAt` first, each joined with its own conversations |
| Db.FindLead | src/app/api/leads/route.ts:113-119 | `findUnique` finds a row iff a lead has that key, and the row found has it |
| Db.ConversationsOf | Routes/Lead.ts:11-14 | the joined conversations are exactly those whose `leadId` is the lead's key |
| LeadRoutes.Get | Routes/Lead.ts:4-32 | a non-empty id serves that lead with its conversations, or 404; an empty or absent id lists the leads exactly as `GetMany`, and a failed query is the unhandled 500 |
| LeadRoutes.GetOne | Routes/Lead.ts:10-21 | for a non-empty id, a lead with that id is returned with its conversations, otherwise 404 |
| LeadRoutes.EmptyIdLists | Routes/Lead.ts:6-10 | `?id=` with an empty value is falsy, so GET answers as if no id had been given |
| LeadRoutes.StageRows | Routes/Lead.ts:24-26 | with a stage, exactly the leads of that stage; without one, all leads |
| LeadRoutes.GetMany | Routes/Lead.ts:23-31 | most recently updated first, exactly the selected rows; a stage outside the enum makes the query throw, answered by the unhandled 500 |
| LeadRoutes.GetManyByStage | Routes/Lead.ts:24-29 | filtering by an enum stage succeeds, and a lead is in the reply exactly when it is stored with that stage |
| LeadRoutes.StageRowsMembers | Routes/Lead.ts:24-26 | a lead is selected by a non-empty stage filter exactly when it is stored and has that stage |
| LeadRoutes.StageOrNew | Routes/Lead.ts:54 | `stage ?? "NEW"`: a stage that was sent passes through unchanged, an absent one becomes NEW |
| LeadRoutes.OrEmpty | Routes/Lead.ts:51-52 | `x \|\| ""` keeps a truthy string and gives "" otherwise |
| LeadRoutes.Post | Routes/Lead.ts:34-67 | 400 unless name, email and company are non-empty, with no email check; fields stored untrimmed; the stored stage is the one sent or NEW, the tags the ones sent or [], linkedIn and notes what was sent or ""; a missing body, or an accepted body whose stage is not in the enum, is a 500; a new lead has no conversations |
| LeadRoutes.NoConversationsForNewLead | Routes/Lead.ts:46-57 | in a valid store no conversation points at a key no lead has |
| LeadRoutes.Patch | Routes/Lead.ts:92-102 | only the seven listed fields are written, absent ones kept; nextFollowUp is never touched |
| LeadRoutes.Put | Routes/Lead.ts:69-114 | no id gives 400, an unknown id 404 with no change; success rewrites only that row |
| LeadRoutes.PutKeepsFollowUp | Routes/Lead.ts:92-102 | no PUT of this handler ever changes any lead's follow-up date |
| LeadRoutes.Delete | Routes/Lead.ts:116-157 | the same outcomes as the other DELETE: 404 for an unknown id, otherwise the cascade |
| ConversationApi.Selected | src/app/api/conversations/route.ts:8-21 | with a leadId exactly that lead's conversations, otherwise all of them |
| ConversationApi.Get | src/app/api/conversations/route.ts:4-22 | the selected conversations, each once, newest timestamp first |
| ConversationApi.GetForLead | src/app/api/conversations/route.ts:8-14 | every conversation returned belongs to the lead, and every conversation of the lead is returned |
| ConversationApi.ReminderOf | src/app/api/conversations/route.ts:40 | an absent or empty reminder is stored as null, any other as its parsed timestamp |
| ConversationApi.Post | src/app/api/conversations/route.ts:24-52 | a missing leadId, type or content gives 400 and stores nothing; 201 iff the fields are present, the lead exists and the reminder is a date; the row is appended with timestamp `now` |
| ConversationApi.AppendConversationKeepsValid | src/app/api/conversations/route.ts:35-43 | appending a conversation with a fresh key for an existing lead keeps the store valid |
| ConversationApi.Revise | src/app/api/conversations/route.ts:78-84 | type and content are replaced when sent and kept when absent; the reminder is always rewritten, to null when omitted |
| ConversationApi.ReplaceConversationKeepsValid | src/app/api/conversations/route.ts:78-86 | overwriting a row with one of the same key and lead keeps the store valid |
| ConversationApi.ReviseAt | src/app/api/conversations/route.ts:78-86 | only the targeted row changes |
| ConversationApi.Put | src/app/api/conversations/route.ts:54-95 | no id gives 400, an unknown id 404 with no change; success changes only that conversation, to `Revise` of it |
| ConversationApi.Delete | src/app/api/conversations/route.ts:97-134 | no id gives 400, an unknown id 404; success removes only that conversation and leaves every lead untouched |
| Db.DeleteConversation | src/app/api/conversations/route.ts:120-122 | the row with that key is gone, every other row stays, the leads are untouched |
| ConversationApi.DeleteUndoesPost | src/app/api/conversations/route.ts:35-44 | deleting the conversation just created, by its non-empty id, restores the store it was created in and answers the success message |
| ConversationRoutes.Get | Routes/Conversations.ts:4-21 | selects and orders exactly as the validating handler |
| ConversationRoutes.Post | Routes/Conversations.ts:23-35 | no field validation: answers 200 iff the database can insert the row, otherwise 500 with nothing stored; reminder is null when absent |
| ConversationRoutes.PostAcceptsMore | Routes/Conversations.ts:23-35 | every body the validating handler accepts is stored identically here, and an empty type and content are accepted too |
| ConversationRoutes.Put | Routes/Conversations.ts:37-58 | no id gives 400; an unknown id is a 500; otherwise the same update as the validating handler, with an omitted reminder set to null |
| ConversationRoutes.Delete | Routes/Conversations.ts:60-74 | no id gives 400; success removes the conversation and answers `true`; an unknown id is a 500 |
| Search.SearchOrderIsPreorder | src/app/api/leads/search/route.ts:36-42 | name ascending, then email ascending, then newest creation first is a total preorder |
| Search.Found | src/app/api/leads/search/route.ts:22-28 | exactly the leads whose lower-cased name or email starts with the lower-cased query |
| Search.TopMatches | src/app/api/leads/search/route.ts:22-42 | at most 3 matching leads in search order; any match left out comes after every one kept, and fewer than 3 means every match is returned |
| Search.Newest | src/app/api/leads/search/route.ts:29-33 | at most n conversations, newest first, none newer left out |
| Search.RecentOf | src/app/api/leads/search/route.ts:29-34 | at most 5 of the lead's own conversations, newest first, and none newer left out |
| Search.Search | src/app/api/leads/search/route.ts:6-56 | a missing or empty q gives 400 and never a list; otherwise the leads are `TopMatches` and each carries `RecentOf` |
| Search.CaseOfQueryIgnored | src/app/api/leads/search/route.ts:25-26 | searching for the lower-cased query returns the same reply |
| Reminders.ReminderFrom | src/components/NotificationDropdown.tsx:37-43 | a record carries the lead's id and name and the conversation's time, type and content |
| Reminders.LeadReminders | src/components/NotificationDropdown.tsx:33-46 | one record per in-window conversation of the lead, each dated within [now, now + 30 days] |
| Reminders.LeadRemindersSound | src/components/NotificationDropdown.tsx:31-47 | every record of one lead comes from a conversation of that lead whose reminder is in the window |
| Reminders.Collect | src/components/NotificationDropdown.tsx:26-47 | every record collected lies within [now, now + 30 days] |
| Reminders.CollectSound | src/components/NotificationDropdown.tsx:31-47 | every record comes from an in-window conversation of some lead |
| Reminders.CollectComplete | src/components/NotificationDropdown.tsx:31-47 | every in-window conversation of every lead yields its record |
| Reminders.EarlierIsPreorder | src/components/NotificationDropdown.tsx:50-52 | ordering by reminder time is a total preorder |
| Reminders.Upcoming | src/components/NotificationDropdown.tsx:26-52 | the collected records, each once, in ascending date order |
| Reminders.UpcomingContents | src/components/NotificationDropdown.tsx:27-47 | every listed date is within the window and every in-window conversation is listed |
| Reminders.UpcomingSound | src/components/NotificationDropdown.tsx:31-47 | every listed record has a source conversation |
| Reminders.HasUnread | src/components/NotificationDropdown.tsx:54 | true iff the list is non-empty |
| Reminders.UnreadIffSomeInWindow | src/components/NotificationDropdown.tsx:31-54 | the badge shows iff some lead has a conversation reminding within the next 30 days |
| Dates.Label | src/components/NotificationDropdown.tsx:57-69 | "Today" iff the same calendar day as now, "Tomorrow" iff the next day, otherwise the date itself |
| Dates.DayStart | src/components/NotificationDropdown.tsx:57-62 | a time lies in the day that starts at its day start |
| Dates.LabelBySpan | src/components/NotificationDropdown.tsx:57-69 | "Today" is exactly the 24 hours from local midnight and "Tomorrow" the 24 hours after |
| Dates.Pad2 | src/components/LeadCard.tsx:75-76 | `padStart(2, "0")` yields at least two digits, exactly two below 100, with the same value |
| Dates.YearRoundTrip | src/components/LeadCard.tsx:77 | the year's decimal text reads back as the year |
| Dates.FormatDate | src/components/LeadCard.tsx:73-79 | dd/mm/yyyy: two digits, '/', two digits, '/', the year |
| Dates.FormatRoundTrip | src/components/LeadCard.tsx:73-79 | reading back a formatted date gives the day, the 1-based month and the year |
| Dates.FormatInjective | src/components/LeadDetailCard.tsx:22-28 | different dates never format to the same text |
| Dates.DecimalRoundTrip | src/components/LeadDetailCard.tsx:24-26 | `String(n)` reads back as n |
| FollowUp.LatestIndex | src/components/LeadCard.tsx:35-46 | none iff no conversation has a reminder; otherwise a conversation whose reminder is at least every reminder and strictly later than all earlier ones |
| FollowUp.LatestIndexUnique | src/components/LeadCard.tsx:39 | the strict comparison picks the first of equal maxima and no other |
| FollowUp.LatestFollowUp | src/components/LeadDetailCard.tsx:12-20 | none iff no reminder; otherwise one of the reminders and at least every one of them |
| FollowUp.HasFollowUp | src/components/LeadCard.tsx:48 | true iff some conversation has a reminder |
| FollowUp.FollowUpLine | src/components/LeadCard.tsx:185-187 | "-" iff there is no follow-up; otherwise the dd/mm/yyyy text of the latest reminder's calendar date |
| FollowUp.RecentConversations | src/components/LeadDetailCard.tsx:149 | the first 5 conversations in list order, or all when fewer |
| FollowUp.LookupTag | src/components/LeadCard.tsx:214-224 | a class is found iff the tag is an own entry of the table, and it is that entry's class |
| FollowUp.TagColorClass | src/components/LeadCard.tsx:213-225 | the mapped class for the seven known tags, the gray default for every other tag |
| FollowUp.TagColorExamples | src/components/LeadCard.tsx:213-225 | "Urgent" is red; lookup is case-sensitive; "constructor" gets the default |
| FollowUp.TagColorClassAsWritten | src/components/LeadCard.tsx:213-225 | the lookup as written also finds the members every object inherits |
| FollowUp.InheritedKeyCounterexample | src/components/LeadCard.tsx:224 | the tag "constructor" yields an inherited member, not a class name |
| LeadForm.InitialForm | src/components/LeadFormModal.tsx:25-34 | every text field (name, email, company, linkedIn, notes, tags, follow-up date) starts empty and the stage is defaultStage when it is given and non-empty, else NEW |
| LeadForm.Validate | src/components/LeadFormModal.tsx:54-60 | "" iff name and email are non-blank, the email is valid and the stage is non-empty; otherwise the first failing message in that order; company is never checked |
| LeadForm.TrimAll | src/components/LeadFormModal.tsx:81-83 | each piece trimmed, none dropped |
| LeadForm.ParseTags | src/components/LeadFormModal.tsx:81-84 | a string is a tag exactly when it is the non-empty trim of some comma-separated piece; the tags keep the pieces' order, and none is empty, has surrounding whitespace or holds a comma |
| LeadForm.KeptPieces | src/components/LeadFormModal.tsx:81-84 | filtering the trimmed pieces keeps exactly the non-empty trims of the pieces |
| LeadForm.ParseTagsCounts | src/components/LeadFormModal.tsx:81-84 | each non-empty trimmed piece appears among the tags as often as among the trimmed pieces, and "" never does |
| LeadForm.ParseTagsJoin | src/components/LeadFormModal.tsx:81-84 | parsing the comma-joined text of clean tags gives them back |
| LeadForm.Submit | src/components/LeadFormModal.tsx:62-87 | no request iff validation fails; otherwise the fields as typed, the parsed tags, and null for an empty follow-up |
| LeadForm.ServerRefusesOnlyBlankCompany | src/components/LeadFormModal.tsx:54-60 | a form that passes the client check with an enum stage is refused by the server exactly when the company is blank |
| Board.FilteredCards | src/components/KanbanBoard.tsx:66-74 | an empty query returns the list unchanged; otherwise exactly the leads whose lower-cased name or email contains the lower-cased query |
| Board.FilteredCardsInOrder | src/components/KanbanBoard.tsx:69-73 | the filtered leads keep their original order |
| Board.CardsByColumn | src/components/KanbanBoard.tsx:77-80 | one entry per column id, holding the filtered leads with that status |
| Board.ColumnContents | src/components/KanbanBoard.tsx:77-80 | a lead is in a column iff its status is the column id, so it is in at most one column |
| Board.AddConversation | src/components/KanbanBoard.tsx:88-104 | exactly one conversation, with the target's id, the summary as content and the supplied reminder, is prepended to the target; every other lead is identical |
| Board.AddThenDrop | src/components/KanbanBoard.tsx:88-104 | dropping the prepended conversation restores the board |
| Pipeline.StageLeads | src/components/LeadPipeline.tsx:131 | exactly the leads of that stage key |
| Pipeline.Buckets | src/components/LeadPipeline.tsx:130-141 | four buckets in stage order, each holding its stage's leads in fetched order, each badge equal to the bucket's size |
| Pipeline.StageKeysInOrder | src/components/LeadPipeline.tsx:5-20 | the buckets' keys are NEW, CONTACTED, CONVERTED, LOST in that order |
| Pipeline.BucketOrder | src/components/LeadPipeline.tsx:5-20 | the buckets come in the fixed order NEW, CONTACTED, CONVERTED, LOST |
| Pipeline.InBucket | src/components/LeadPipeline.tsx:130-131 | bucket i holds a lead iff the lead's stage is the i-th key |
| Pipeline.BucketsByStage | src/components/LeadPipeline.tsx:130-131 | a lead is in some bucket iff its stage is one of the four keys, so a lead with any other stage is in none |
| Pipeline.CountsAddUp | src/components/LeadPipeline.tsx:130-141 | the four counts add up to the number of leads with a valid stage |
| Pipeline.CountsBoundedByLeads | src/components/LeadPipeline.tsx:130-141 | the bucket sizes sum to at most the number of leads, with equality iff every stage is valid |
| LeadsHook.ErrorText | src/hooks/useLeads.ts:18 | the error's message when it has one, else the fixed fallback |
| LeadsHook.Fetch | src/hooks/useLeads.ts:11-22 | success replaces the list and clears the error; a failure keeps the list and sets the error; loading ends either way |
| LeadsHook.Create | src/hooks/useLeads.ts:25-41 | success appends the new lead at the end; a failure keeps the list, sets the error and rethrows |
| LeadsHook.ReplaceById | src/hooks/useLeads.ts:50-52 | entries with the id become the returned lead, all others and the length stay |
| LeadsHook.Update | src/hooks/useLeads.ts:44-62 | success replaces the leads with that id; a failure keeps the list, sets the error and rethrows |
| LeadsHook.Delete | src/hooks/useLeads.ts:65-77 | success removes every lead with that id and keeps the rest in order; a failure keeps the list, sets the error and rethrows |
| LeadsHook.CreateThenDelete | src/hooks/useLeads.ts:31-70 | deleting a just-created lead with a fresh id restores the list |
| LeadsHook.UpdateIdempotent | src/hooks/useLeads.ts:50-52 | applying the same successful update twice equals applying it once |
| ManageLeads.EditFormOf | src/app/manage-leads/page.tsx:58-70 | name, email, company, linkedIn, tags and stage are copied; missing notes become "" |
| ManageLeads.ReadTags | src/app/manage-leads/page.tsx:258-262 | one entry per comma-separated piece, in order, each the trim of its piece, so there is always at least one |
| ManageLeads.EmptyInputGivesEmptyTag | src/app/manage-leads/page.tsx:257-262 | an empty input, including the display of no tags, reads back as one empty tag |
| ManageLeads.JoinSpaced | src/app/manage-leads/page.tsx:257 | joining with ", " is joining with "," after prefixing a space to every tag but the first |
| ManageLeads.ShowThenRead | src/app/manage-leads/page.tsx:257-261 | reading back the displayed tags gives the tags when there is at least one and none has a comma or surrounding whitespace |
| ManageLeads.StageOptionsAreTheEnum | src/app/manage-leads/page.tsx:277-280 | the options are exactly the four enum keys, in stage order |
| ConversationModal.InitialFields | src/components/AddConversationModal.tsx:21-26 | type defaults to "call", summary to the initial summary, outcome and reminder to "" |
| ConversationModal.CardSummary | src/components/LeadCard.tsx:206 | the initial summary is the first conversation's content, or "" when there is none |
| ConversationModal.Submit | src/components/AddConversationModal.tsx:28-43 | type and summary copied; an empty outcome or reminder is sent as undefined; a reminder reads back as the picked calendar date, or is the Invalid Date text |
| ConversationModal.ReminderShape | src/components/AddConversationModal.tsx:35-41 | the reminder is dd/mm/yyyy with zero-padded day and month equal to the picked ones |
| Text.Trim | src/app/api/leads/route.ts:35 | the result is a slice of the input with only whitespace cut off either end; it is trimmed, empty iff the input is blank, and unchanged for a trimmed input |
| Text.TrimIsInner | src/app/api/leads/route.ts:35 | stripping leading then trailing whitespace leaves a slice of the input with only whitespace outside it |
| Text.TrimDetermined | src/app/api/leads/route.ts:35 | any trimmed slice of the input that cuts only whitespace is the trim: the trim is the unique such slice |
| Text.Lower | src/app/api/leads/search/route.ts:25 | every ASCII capital becomes its small letter and every other character stays |
| Text.LowerIdempotent | src/components/KanbanBoard.tsx:69-72 | lower-casing twice equals lower-casing once |
| Text.SplitJoin | src/components/LeadFormModal.tsx:81-82 | splitting the joined pieces on a separator they lack gives them back |
| Text.JoinSplit | src/app/manage-leads/page.tsx:257-261 | joining the split pieces with the separator gives the text back |
| Text.LessTransitive | src/app/api/leads/search/route.ts:38-39 | code-point string order is transitive |
| Text.LessTrichotomy | src/app/api/leads/search/route.ts:38-39 | any two different strings are ordered one way or the other |
| Crm.ParseStage | src/app/api/leads/route.ts:5 | a stage is read iff the text is one of the four enum keys, and it shows as that key |
| Crm.ReadDate | src/app/api/leads/route.ts:76 | an absent or empty date is unset; a set date carries the parsed time |
| Sorting.Sort | src/app/api/leads/route.ts:15 | the same elements, each as often, in order under the given preorder |
| Sorting.Top | src/app/api/leads/search/route.ts:35-42 | the first n in order: the cap applies after ordering, and nothing left out comes before anything kept |
| Sorting.TopOfFilter | src/app/api/leads/search/route.ts:22-42 | the first n of the accepted elements are all accepted members of the input; an accepted element left out comes after every one kept, and fewer than n means none was left out |
| Sorting.Filter | src/components/LeadPipeline.tsx:131 | every element kept passes the test, an element of the input is kept iff it passes, and nothing is added (sub-multiset, no longer) |
| Sorting.FilterCounts | src/components/LeadPipeline.tsx:131 | an accepted element is kept as many times as it occurs, a rejected one not at all |
| Sorting.FilterIsSubsequence | src/hooks/useLeads.ts:70 | filtering keeps the original order |

## Left out

- Prisma, the database engine and HTTP plumbing: the store is two sequences, and a reply is a datatype carrying the status.
- Db.DeleteCascade: the source removes the conversations and then the lead in two separate calls, with no transaction. The model takes the cascade as one step, so a failure between the two calls is not modelled.
- The body of an uncaught error's 500: the framework answers it, not the handler. The model writes it as the single constant `Crm.Unhandled` and promises only the status.
- Status 500 from a database failure that has no cause inside the model, such as a lost connection. Only failures caused by the request are modelled.
- React rendering, hook scheduling, effects, DOM events and the 150 ms debounce of the search box.
- The `fetch` wrappers of `src/services/api.ts`. The leads hook takes each call's outcome as a parameter (`LeadsHook.Outcome`).
- JavaScript `Date`: time zones, daylight saving, `toDateString` and month rollover.
  - A zone is a fixed offset, and a calendar day is a `DayMs`-long span.
  - "30 days from now" is `now + 30 * DayMs`.
  - `Date.parse` is an input, not a function of the text.
  - The conversion from a timestamp to day, month and year is the parameter `cal` of `FollowUp.FollowUpLine`, and the `picked` date of `ConversationModal.Submit`.
- Dates.Label: a date that is neither today nor tomorrow is shown with `toLocaleDateString`. The model returns the time itself (`OnDate`), because the locale's format is outside the model.
- Unicode case folding and database collation:
  - `mode: "insensitive"`, `toLowerCase` and `orderBy name` are modelled with ASCII lower-casing and code-point order.
  - Text.Lower: does not fold non-ASCII letters, because the locale rules of `toLowerCase` and of the database are outside the model.
- JSON values that are not strings, numbers or arrays of strings, such as a numeric `name` or a `null` where a string is expected. Each field is either absent or a string.
- The joins `include: { lead: true }` on conversation replies. They add a copy of the owning lead and change nothing in the store.
- Type mismatches in the source are left as they are, not modelled as intended behaviour:
  - `LeadCard` calls `.toISOString()` on a reminder that arrives as a JSON string; the model compares timestamps.
  - `LeadList` sends `status` instead of `stage`.
  - The modal's dd/mm/yyyy reminder text is later re-read by `new Date`, which reads it month first or not at all. This shows as `Crm.DateInput.parsed`.
- Board.AddConversation: the board's handler drops the modal's `outcome`, as the source does, so the model's conversation has no outcome.
- The fixtures of `prisma/seed.ts` and `src/data/initialData.ts`, and components without logic (`AddLeadModal`, `AddLeadButton`, `Header`, `Column`, `ProfileDropdown`, `LeadList`, the home page, the Next configuration).
- The client's id `Date.now().toString()` for a new conversation on the board is the parameter `newId`.

## Findings

| source | as written | input that shows it | evidently intended | confidence | as-written member | corrected member |
|---|---|---|---|---|---|---|
| src/components/LeadCard.tsx:213-225 | `tagMap[tag] \|\| default` looks the tag up on a plain object literal, so keys inherited from `Object.prototype` are found too | the tag `"constructor"` yields the `Object` function, not a class string, and the gray default is never used | only the seven own entries map to a class; every other tag gets the gray default | not executed | FollowUp.InheritedKeyCounterexample | FollowUp.TagColorClass |

=== FILE: board.dfy ===
/** The Kanban board: the quick filter over the cards, the grouping of cards
    into columns, and logging a conversation on a card. The board works on
    its own card records, whose `status` names a column. */
module Board {
  import opened Crm
  import opened Text
  import opened Sorting

  datatype Card = Card(id: Id, name: string, email: string, status: string, conversations: seq<Conversation>)

  datatype Column = Column(id: string, title: string, color: string)

  const InitialColumns: seq<Column> := [
    Column("new", "New", "blue"),
    Column("contacted", "Contacted", "amber"),
    Column("converted", "Converted", "green"),
    Column("lost", "Lost", "red")
  ]

  /** The query occurs, ignoring case, in the card's name or email */
  predicate CardMatches(q: string, c: Card) {
    Contains(Lower(c.name), Lower(q)) || Contains(Lower(c.email), Lower(q))
  }

  /** `filteredLeads` */
  function FilteredCards(cards: seq<Card>, q: string): (r: seq<Card>)
    ensures q == "" ==> r == cards
    ensures q != "" ==> forall k :: 0 <= k < |cards| ==> (cards[k] in r <==> CardMatches(q, cards[k]))
    ensures forall k :: 0 <= k < |r| ==> r[k] in cards
    ensures q != "" ==> forall k :: 0 <= k < |r| ==> CardMatches(q, r[k])
  {
    if q == "" then cards
    else
      var r := Filter(cards, c => CardMatches(q, c));
      assert forall k :: 0 <= k < |r| ==> r[k] in multiset(cards);
      r
  }

  /** The filter keeps the cards' order */
  lemma FilteredCardsInOrder(cards: seq<Card>, q: string)
    ensures IsSubsequence(FilteredCards(cards, q), cards)
  {
    if q == "" {
      SubsequenceRefl(cards);
    } else {
      FilterIsSubsequence(cards, c => CardMatches(q, c));
    }
  }

  lemma {:induction false} SubsequenceRefl<T>(s: seq<T>)
    ensures IsSubsequence(s, s)
    decreases |s|
  {
    if |s| > 0 {
      SubsequenceRefl(s[1..]);
    }
  }

  predicate InColumn(columnId: string, c: Card) {
    c.status == columnId
  }

  function ColumnIds(columns: seq<Column>): set<string> {
    set k | 0 <= k < |columns| :: columns[k].id
  }

  /** `leadsByColumn`: each column id mapped to the cards whose status is
      that id, in order */
  function CardsByColumn(columns: seq<Column>, cards: seq<Card>): (m: map<string, seq<Card>>)
    ensures m.Keys == ColumnIds(columns)
    ensures forall id :: id in m ==> m[id] == Filter(cards, c => InColumn(id, c))
    decreases |columns|
  {
    if |columns| == 0 then map[]
    else
      var id := columns[|columns| - 1].id;
      var m := CardsByColumn(columns[..|columns| - 1], cards);
      ColumnIdsSnoc(columns);
      m[id := Filter(cards, c => InColumn(id, c))]
  }

  lemma ColumnIdsSnoc(columns: seq<Column>)
    requires |columns| > 0
    ensures ColumnIds(columns) == ColumnIds(columns[..|columns| - 1]) + {columns[|columns| - 1].id}
  {
    assert forall k :: 0 <= k < |columns| - 1 ==> columns[..|columns| - 1][k] == columns[k];
  }

  /** A column holds exactly the cards of its status, and a card sits in at
      most one column */
  lemma ColumnContents(columns: seq<Column>, cards: seq<Card>)
    ensures var m := CardsByColumn(columns, cards);
            && (forall id, k :: id in m && 0 <= k < |cards| ==> (cards[k] in m[id] <==> cards[k].status == id))
            && (forall id, k :: id in m && 0 <= k < |m[id]| ==> m[id][k].status == id)
            && (forall a, b, c :: a in m && b in m && c in m[a] && c in m[b] ==> a == b)
  {
    var m := CardsByColumn(columns, cards);
    forall a, b, c | a in m && b in m && c in m[a] && c in m[b]
      ensures a == b
    {
      var i :| 0 <= i < |m[a]| && m[a][i] == c;
      var j :| 0 <= j < |m[b]| && m[b][j] == c;
    }
  }

  /** What the conversation modal hands to the board */
  datatype NewConversation = NewConversation(kind: string, summary: string, outcome: Option<string>, reminder: Option<Time>)

  /** `handleAddConversation`: the new entry goes in front of the target
      card's conversations; `outcome` is not kept */
  function AddConversation(cards: seq<Card>, leadId: Id, n: NewConversation, newId: Id, now: Time): (r: seq<Card>)
    ensures |r| == |cards|
    ensures forall k :: 0 <= k < |cards| && cards[k].id != leadId ==> r[k] == cards[k]
    ensures forall k :: 0 <= k < |cards| && cards[k].id == leadId ==>
              && r[k].conversations == [Conversation(newId, leadId, n.kind, n.summary, now, n.reminder)] + cards[k].conversations
              && r[k] == cards[k].(conversations := r[k].conversations)
  {
    var c := Conversation(newId, leadId, n.kind, n.summary, now, n.reminder);
    seq(|cards|, k requires 0 <= k < |cards| =>
      if cards[k].id == leadId then cards[k].(conversations := [c] + cards[k].conversations) else cards[k])
  }

  /** Removing the first conversation of the target cards undoes the add */
  function DropLatest(cards: seq<Card>, leadId: Id): (r: seq<Card>)
    ensures |r| == |cards|
  {
    seq(|cards|, k requires 0 <= k < |cards| =>
      if cards[k].id == leadId && |cards[k].conversations| > 0
      then cards[k].(conversations := cards[k].conversations[1..]) else cards[k])
  }

  lemma AddThenDrop(cards: seq<Card>, leadId: Id, n: NewConversation, newId: Id, now: Time)
    ensures DropLatest(AddConversation(cards, leadId, n, newId, now), leadId) == cards
  {
    var r := DropLatest(AddConversation(cards, leadId, n, newId, now), leadId);
    forall k | 0 <= k < |cards|
      ensures r[k] == cards[k]
    {
      var a := AddConversation(cards, leadId, n, newId, now);
      if cards[k].id == leadId {
        assert a[k].conversations[1..] == cards[k].conversations;
      }
    }
  }
}

=== FILE: conversation_api.dfy ===
/** The conversation log behind /api/conversations: listing newest first,
    logging an interaction against a lead, revising one and removing one. */
module ConversationApi {
  import opened Crm
  import opened Sorting
  import opened Db

  const FieldsRequired := "LeadId, type, and content are required fields"
  const CreateFailed := "Failed to create conversation"
  const IdRequired := "Conversation ID is required"
  const NotFoundMessage := "Conversation not found"
  const UpdateFailed := "Failed to update conversation"
  const Deleted := "Conversation deleted successfully"

  /** The rows a GET selects: one lead's conversations when `?leadId=` is
      given, otherwise all of them */
  function Selected(cs: seq<Conversation>, leadId: Option<string>): (r: seq<Conversation>)
    ensures !Truthy(leadId) ==> r == cs
    ensures Truthy(leadId) ==>
              && (forall k :: 0 <= k < |r| ==> r[k].leadId == leadId.value)
              && (forall k :: 0 <= k < |cs| ==> (cs[k] in r <==> cs[k].leadId == leadId.value))
              && multiset(r) <= multiset(cs)
  {
    if Truthy(leadId) then ConversationsOf(cs, leadId.value) else cs
  }

  /** GET: the selected conversations, newest first */
  function Get(s: Store, leadId: Option<string>): (r: seq<Conversation>)
    ensures multiset(r) == multiset(Selected(s.conversations, leadId))
    ensures forall i, j :: 0 <= i < j < |r| ==> r[i].timestamp >= r[j].timestamp
  {
    OrdersArePreorders();
    Sort(Selected(s.conversations, leadId), NewerConversation)
  }

  /** A GET for one lead returns that lead's conversations and nothing else */
  lemma GetForLead(s: Store, leadId: string)
    requires leadId != ""
    ensures forall k :: 0 <= k < |Get(s, Some(leadId))| ==> Get(s, Some(leadId))[k].leadId == leadId
    ensures forall k :: 0 <= k < |s.conversations| ==>
              (s.conversations[k] in Get(s, Some(leadId)) <==> s.conversations[k].leadId == leadId)
  {
    var r := Get(s, Some(leadId));
    var rows := Selected(s.conversations, Some(leadId));
    forall k | 0 <= k < |r|
      ensures r[k].leadId == leadId
    {
      assert r[k] in multiset(rows);
    }
    forall k | 0 <= k < |s.conversations|
      ensures s.conversations[k] in r <==> s.conversations[k] in rows
    {
      assert s.conversations[k] in r <==> s.conversations[k] in multiset(r);
    }
  }

  predicate CreateAccepted(b: ConversationBody) {
    Truthy(b.leadId) && Truthy(b.kind) && Truthy(b.content)
  }

  /** `reminder: body.reminder ? new Date(body.reminder) : null`, for a
      reminder that is not an Invalid Date */
  function ReminderOf(d: Option<DateInput>): (r: Option<Time>)
    requires ReadDate(d) != Invalid
    ensures r.None? <==> ReadDate(d) == Unset
    ensures r.Some? ==> d.Some? && d.value.parsed == r
  {
    match ReadDate(d)
    case At(t) => Some(t)
    case _ => None
  }

  /** Appending a conversation with a fresh key and a resolving foreign key
      keeps the store valid */
  lemma AppendConversationKeepsValid(s: Store, c: Conversation)
    requires !HasConversation(s.conversations, c.id)
    requires HasLead(s.leads, c.leadId)
    ensures Valid(s) ==> Valid(Store(s.leads, s.conversations + [c]))
  {
    var cs := s.conversations + [c];
    if Valid(s) {
      forall k | 0 <= k < |cs|
        ensures HasLead(s.leads, cs[k].leadId)
      {
        if k < |s.conversations| {
          assert cs[k] == s.conversations[k];
        }
      }
    }
  }

  /** POST: log an interaction; the database stamps it with `now` and
      refuses a lead key that does not exist or a reminder it cannot read */
  function Post(s: Store, body: Option<ConversationBody>, newId: Id, now: Time): (r: Step<Conversation>)
    requires !HasConversation(s.conversations, newId)
    ensures body.None? ==> r.reply == ServerError(CreateFailed)
    ensures body.Some? && !CreateAccepted(body.value) ==> r.reply == BadRequest(FieldsRequired)
    ensures r.reply.Created? <==>
              && body.Some? && CreateAccepted(body.value)
              && HasLead(s.leads, body.value.leadId.value)
              && ReadDate(body.value.reminder) != Invalid
    ensures !r.reply.Created? ==> r.store == s
    ensures r.reply.Created? ==>
              var c := r.reply.value;
              && r.store == Store(s.leads, s.conversations + [c])
              && c.id == newId && c.timestamp == now
              && c.leadId == body.value.leadId.value
              && c.kind == body.value.kind.value
              && c.content == body.value.content.value
              && (c.reminder.None? <==> ReadDate(body.value.reminder) == Unset)
              && (c.reminder.Some? ==> body.value.reminder.value.parsed == c.reminder)
    ensures Valid(s) ==> Valid(r.store)
  {
    if body.None? then Step(s, ServerError(CreateFailed))
    else
      var b := body.value;
      if !CreateAccepted(b) then Step(s, BadRequest(FieldsRequired))
      else if !HasLead(s.leads, b.leadId.value) || ReadDate(b.reminder) == Invalid then
        Step(s, ServerError(CreateFailed))
      else
        var c := Conversation(newId, b.leadId.value, b.kind.value, b.content.value, now, ReminderOf(b.reminder));
        AppendConversationKeepsValid(s, c);
        Step(Store(s.leads, s.conversations + [c]), Created(c))
  }

  /** The row after `conversation.update`: type and content are written only
      when sent, the reminder is always overwritten */
  function Revise(c: Conversation, b: ConversationBody): (r: Conversation)
    requires ReadDate(b.reminder) != Invalid
    ensures r.id == c.id && r.leadId == c.leadId && r.timestamp == c.timestamp
    ensures b.kind.None? ==> r.kind == c.kind
    ensures b.kind.Some? ==> r.kind == b.kind.value
    ensures b.content.None? ==> r.content == c.content
    ensures b.content.Some? ==> r.content == b.content.value
    ensures r.reminder == ReminderOf(b.reminder)
  {
    c.(kind := if b.kind.Some? then b.kind.value else c.kind,
       content := if b.content.Some? then b.content.value else c.content,
       reminder := ReminderOf(b.reminder))
  }

  /** Overwriting a conversation row with one of the same keys keeps the
      store valid, and that key occurs nowhere else */
  lemma ReplaceConversationKeepsValid(s: Store, i: nat, c: Conversation)
    requires i < |s.conversations|
    requires c.id == s.conversations[i].id && c.leadId == s.conversations[i].leadId
    ensures Valid(s) ==> Valid(Store(s.leads, s.conversations[i := c]))
    ensures Valid(s) ==> forall k :: 0 <= k < |s.conversations| && k != i ==> s.conversations[k].id != c.id
  {
    var cs := s.conversations[i := c];
    if Valid(s) {
      forall k | 0 <= k < |cs|
        ensures HasLead(s.leads, cs[k].leadId)
      {
        assert cs[k].leadId == s.conversations[k].leadId;
      }
    }
  }

  /** The store after revising the conversation at `i` */
  function ReviseAt(s: Store, i: nat, b: ConversationBody): (r: Store)
    requires i < |s.conversations|
    requires ReadDate(b.reminder) != Invalid
    ensures r.leads == s.leads
    ensures |r.conversations| == |s.conversations|
    ensures r.conversations[i] == Revise(s.conversations[i], b)
    ensures forall k :: 0 <= k < |s.conversations| && k != i ==> r.conversations[k] == s.conversations[k]
    ensures Valid(s) ==> Valid(r)
  {
    var c := Revise(s.conversations[i], b);
    ReplaceConversationKeepsValid(s, i, c);
    Store(s.leads, s.conversations[i := c])
  }

  /** PUT ?id= */
  function Put(s: Store, id: Option<string>, body: Option<ConversationBody>): (r: Step<Conversation>)
    ensures !Truthy(id) ==> r.reply == BadRequest(IdRequired)
    ensures Truthy(id) && body.Some? && !HasConversation(s.conversations, id.value) ==>
              r.reply == NotFound(NotFoundMessage)
    ensures r.reply.Ok? <==>
              && Truthy(id) && body.Some? && HasConversation(s.conversations, id.value)
              && ReadDate(body.value.reminder) != Invalid
    ensures !r.reply.Ok? ==> r.store == s
    ensures r.reply.Ok? ==>
              && r.store.leads == s.leads
              && |r.store.conversations| == |s.conversations|
              && (forall k :: 0 <= k < |s.conversations| && s.conversations[k].id != id.value ==>
                    r.store.conversations[k] == s.conversations[k])
              && r.reply.value.id == id.value
              && r.reply.value in r.store.conversations
    ensures r.reply.Ok? && Valid(s) ==>
              forall k :: 0 <= k < |s.conversations| && s.conversations[k].id == id.value ==>
                && r.store.conversations[k] == Revise(s.conversations[k], body.value)
                && r.reply.value == r.store.conversations[k]
    ensures Valid(s) ==> Valid(r.store)
  {
    if !Truthy(id) then Step(s, BadRequest(IdRequired))
    else if body.None? then Step(s, ServerError(UpdateFailed))
    else
      match FindConversation(s.conversations, id.value)
      case None => Step(s, NotFound(NotFoundMessage))
      case Some(i) =>
        if ReadDate(body.value.reminder) == Invalid then Step(s, ServerError(UpdateFailed))
        else
          var s' := ReviseAt(s, i, body.value);
          ReplaceConversationKeepsValid(s, i, s'.conversations[i]);
          Step(s', Ok(s'.conversations[i]))
  }

  /** DELETE ?id= */
  function Delete(s: Store, id: Option<string>): (r: Step<string>)
    ensures !Truthy(id) ==> r.reply == BadRequest(IdRequired)
    ensures Truthy(id) && !HasConversation(s.conversations, id.value) ==> r.reply == NotFound(NotFoundMessage)
    ensures r.reply.Ok? <==> Truthy(id) && HasConversation(s.conversations, id.value)
    ensures !r.reply.Ok? ==> r.store == s
    ensures r.reply.Ok? ==> r.store == DeleteConversation(s, id.value) && r.reply.value == Deleted
    ensures Valid(s) ==> Valid(r.store)
  {
    if !Truthy(id) then Step(s, BadRequest(IdRequired))
    else if !HasConversation(s.conversations, id.value) then Step(s, NotFound(NotFoundMessage))
    else
      DeleteConversationKeepsValid(s, id.value);
      Step(DeleteConversation(s, id.value), Ok(Deleted))
  }

  /** Deleting a conversation right after logging it restores the store */
  lemma {:induction false} DeleteUndoesPost(s: Store, body: Option<ConversationBody>, newId: Id, now: Time)
    requires !HasConversation(s.conversations, newId)
    requires Post(s, body, newId, now).reply.Created?
    ensures newId != ""
            ==> var s' := Post(s, body, newId, now).store;
                Delete(s', Some(newId)) == Step(s, Ok(Deleted))
  {
    var c := Post(s, body, newId, now).reply.value;
    DeleteAppended(s, c);
    var s' := Store(s.leads, s.conversations + [c]);
    assert s'.conversations[|s.conversations|] == c;
  }

  /** Deleting the conversation just appended gives back the store */
  lemma DeleteAppended(s: Store, c: Conversation)
    requires !HasConversation(s.conversations, c.id)
    ensures DeleteConversation(Store(s.leads, s.conversations + [c]), c.id) == s
  {
    var keep := (x: Conversation) => NotConversation(c.id, x);
    FilterAppend(s.conversations, [c], keep);
    FilterOfAllKept(s.conversations, keep);
    assert Filter([c], keep) == [];
  }
}

=== FILE: conversation_modal.dfy ===
/** The "log conversation" dialog: its starting values and the record it
    hands to the card when submitted. */
module ConversationModal {
  import opened Crm
  import opened Dates

  const Kinds: seq<string> := ["email", "call", "linkedin", "meeting", "other"]

  datatype Fields = Fields(kind: string, summary: string, outcome: string, reminder: string)

  /** What `onAdd` receives */
  datatype Entry = Entry(kind: string, summary: string, outcome: Option<string>, reminder: Option<string>)

  /** The dialog opens on "call", with the given summary (the card passes
      its latest conversation's content, or "") and empty outcome and
      reminder */
  function InitialFields(initialSummary: string): (f: Fields)
    ensures f.kind == "call" && f.kind in Kinds
    ensures f.summary == initialSummary && f.outcome == "" && f.reminder == ""
  {
    Fields("call", initialSummary, "", "")
  }

  /** `lead.conversations?.[0]?.content || ""` */
  function CardSummary(cs: seq<Conversation>): (r: string)
    ensures |cs| > 0 ==> r == cs[0].content
    ensures |cs| == 0 ==> r == ""
  {
    if |cs| > 0 then cs[0].content else ""
  }

  /** What `String(NaN).padStart(2, "0")` and the year give for an input
      `new Date` cannot read */
  const InvalidDateText := "NaN/NaN/NaN"

  /** `handleSubmit`. `picked` is the local calendar date of the reminder
      input as `new Date` reads it, `None` when it cannot. */
  function Submit(f: Fields, picked: Option<CivilDate>): (e: Entry)
    requires picked.Some? ==> ValidCivil(picked.value)
    ensures e.kind == f.kind && e.summary == f.summary
    ensures e.outcome.None? <==> f.outcome == ""
    ensures e.outcome.Some? ==> e.outcome.value == f.outcome
    ensures e.reminder.None? <==> f.reminder == ""
    ensures e.reminder.Some? && picked.Some? ==> ParseDate(e.reminder.value) == picked
    ensures e.reminder.Some? && picked.None? ==> e.reminder.value == InvalidDateText
  {
    var outcome := if f.outcome == "" then None else Some(f.outcome);
    if f.reminder == "" then Entry(f.kind, f.summary, outcome, None)
    else if picked.None? then Entry(f.kind, f.summary, outcome, Some(InvalidDateText))
    else
      FormatRoundTrip(picked.value);
      Entry(f.kind, f.summary, outcome, Some(FormatDate(picked.value)))
  }

  /** The reminder text is always day and month as two digits, then the
      year, separated by '/' */
  lemma ReminderShape(f: Fields, d: CivilDate)
    requires ValidCivil(d) && f.reminder != ""
    ensures var r := Submit(f, Some(d)).reminder.value;
            && r[2] == '/' && r[5] == '/'
            && AllDigits(r[..2]) && AllDigits(r[3..5])
            && DigitsValue(r[..2]) == d.day && DigitsValue(r[3..5]) == d.month
  {
    var r := FormatDate(d);
    assert r[..2] == Pad2(d.day);
    assert r[3..5] == Pad2(d.month);
  }
}

=== FILE: conversation_routes.dfy ===
/** The older conversation handlers in Routes/Conversations.ts. They run the
    same queries as /api/conversations but validate nothing themselves and
    catch nothing: whatever the database refuses becomes a 500, a POST that
    succeeds answers 200 rather than 201, and a DELETE answers `true`. */
module ConversationRoutes {
  import opened Crm
  import opened Db
  import ConversationApi

  /** GET selects and orders exactly as the /api/conversations handler */
  function Get(s: Store, leadId: Option<string>): (r: seq<Conversation>)
    ensures r == ConversationApi.Get(s, leadId)
  {
    ConversationApi.Get(s, leadId)
  }

  /** What `conversation.create` needs: every required column present, a
      lead that exists and a reminder that is not an Invalid Date */
  predicate Insertable(s: Store, b: ConversationBody) {
    && b.leadId.Some? && b.kind.Some? && b.content.Some?
    && HasLead(s.leads, b.leadId.value)
    && ReadDate(b.reminder) != Invalid
  }

  /** POST without validation */
  function Post(s: Store, body: Option<ConversationBody>, newId: Id, now: Time): (r: Step<Conversation>)
    requires !HasConversation(s.conversations, newId)
    ensures r.reply.Ok? <==> body.Some? && Insertable(s, body.value)
    ensures !r.reply.Ok? ==> r.store == s && r.reply.ServerError?
    ensures r.reply.Ok? ==>
              var c := r.reply.value;
              && r.store == Store(s.leads, s.conversations + [c])
              && c.id == newId && c.timestamp == now
              && c.leadId == body.value.leadId.value
              && c.kind == body.value.kind.value
              && c.content == body.value.content.value
              && c.reminder == ConversationApi.ReminderOf(body.value.reminder)
    ensures Valid(s) ==> Valid(r.store)
  {
    if body.None? || !Insertable(s, body.value) then Step(s, ServerError(Unhandled))
    else
      var b := body.value;
      var c := Conversation(newId, b.leadId.value, b.kind.value, b.content.value, now,
                            ConversationApi.ReminderOf(b.reminder));
      ConversationApi.AppendConversationKeepsValid(s, c);
      Step(Store(s.leads, s.conversations + [c]), Ok(c))
  }

  /** Whatever the validating handler creates, this one creates too, with
      the same row; it also stores rows with an empty type or content */
  lemma PostAcceptsMore(s: Store, body: Option<ConversationBody>, newId: Id, now: Time)
    requires !HasConversation(s.conversations, newId)
    ensures ConversationApi.Post(s, body, newId, now).reply.Created? ==>
              && Post(s, body, newId, now).reply == Ok(ConversationApi.Post(s, body, newId, now).reply.value)
              && Post(s, body, newId, now).store == ConversationApi.Post(s, body, newId, now).store
    ensures HasLead(s.leads, "x") ==>
              Post(s, Some(ConversationBody(Some("x"), Some(""), Some(""), None)), newId, now).reply.Ok?
  {
  }

  /** PUT ?id= : a missing conversation makes `update` throw */
  function Put(s: Store, id: Option<string>, body: Option<ConversationBody>): (r: Step<Conversation>)
    ensures !Truthy(id) ==> r.reply == BadRequest(ConversationApi.IdRequired)
    ensures r.reply.Ok? <==>
              && Truthy(id) && body.Some? && HasConversation(s.conversations, id.value)
              && ReadDate(body.value.reminder) != Invalid
    ensures Truthy(id) && !r.reply.Ok? ==> r.reply.ServerError?
    ensures !r.reply.Ok? ==> r.store == s
    ensures r.reply.Ok? ==> r == ConversationApi.Put(s, id, body)
    ensures Valid(s) ==> Valid(r.store)
  {
    if Truthy(id) && body.Some? && !HasConversation(s.conversations, id.value) then
      Step(s, ServerError(Unhandled))
    else
      var api := ConversationApi.Put(s, id, body);
      if api.reply.ServerError? then Step(s, ServerError(Unhandled)) else api
  }

  /** DELETE ?id= : a missing conversation makes `delete` throw */
  function Delete(s: Store, id: Option<string>): (r: Step<bool>)
    ensures !Truthy(id) ==> r.reply == BadRequest(ConversationApi.IdRequired)
    ensures r.reply.Ok? <==> Truthy(id) && HasConversation(s.conversations, id.value)
    ensures Truthy(id) && !r.reply.Ok? ==> r.reply.ServerError?
    ensures !r.reply.Ok? ==> r.store == s
    ensures r.reply.Ok? ==> r.store == DeleteConversation(s, id.value) && r.reply.value
    ensures Valid(s) ==> Valid(r.store)
  {
    if !Truthy(id) then Step(s, BadRequest(ConversationApi.IdRequired))
    else if !HasConversation(s.conversations, id.value) then Step(s, ServerError(Unhandled))
    else
      DeleteConversationKeepsValid(s, id.value);
      Step(DeleteConversation(s, id.value), Ok(true))
  }
}

=== FILE: crm.dfy ===
/** The records of the lead-tracking CRM: leads, the conversations logged
    against them, the request bodies the API accepts and the replies it
    sends. Timestamps are milliseconds since the epoch. */
module Crm {

  type Id = string

  /** Milliseconds since the epoch, as JavaScript's `Date.getTime()` */
  type Time = int

  /** Length of one calendar day in milliseconds */
  const DayMs: int := 86_400_000

  datatype Option<T> = None | Some(value: T)

  /** The four pipeline stages, in their fixed display order */
  datatype Stage = New | Contacted | Converted | Lost {
    /** The enum key stored in the database and sent on the wire */
    function Key(): string {
      match this
      case New => "NEW"
      case Contacted => "CONTACTED"
      case Converted => "CONVERTED"
      case Lost => "LOST"
    }
  }

  /** Stages in display order */
  const Stages: seq<Stage> := [New, Contacted, Converted, Lost]

  /** The only stage keys the database enum accepts */
  const StageKeys: seq<string> := ["NEW", "CONTACTED", "CONVERTED", "LOST"]

  predicate IsStageKey(s: string) {
    s in StageKeys
  }

  function ParseStage(s: string): (r: Option<Stage>)
    ensures r.Some? <==> IsStageKey(s)
    ensures r.Some? ==> r.value.Key() == s
  {
    if s == "NEW" then Some(New)
    else if s == "CONTACTED" then Some(Contacted)
    else if s == "CONVERTED" then Some(Converted)
    else if s == "LOST" then Some(Lost)
    else None
  }

  /** A stored lead row. `stage` is kept in its wire form: the client side
      receives it as untyped JSON and may see keys outside the enum. */
  datatype Lead = Lead(
    id: Id,
    name: string,
    email: string,
    company: string,
    linkedIn: string,
    notes: Option<string>,
    tags: seq<string>,
    stage: string,
    nextFollowUp: Option<Time>,
    createdAt: Time,
    updatedAt: Time)

  /** A stored conversation row; `leadId` refers to the owning lead */
  datatype Conversation = Conversation(
    id: Id,
    leadId: Id,
    kind: string,
    content: string,
    timestamp: Time,
    reminder: Option<Time>)

  /** A lead with its conversations attached, the JSON shape the API returns
      and every client component consumes */
  datatype LeadView = LeadView(lead: Lead, conversations: seq<Conversation>)

  /** A date string from a request body together with what `Date.parse`
      makes of it (`None` when it yields NaN) */
  datatype DateInput = DateInput(text: string, parsed: Option<Time>)

  /** How `x ? new Date(x) : fallback` resolves a date field of a body */
  datatype DateField = Unset | At(time: Time) | Invalid

  /** JavaScript truthiness of an optional string: absent and "" are falsy */
  predicate Truthy(s: Option<string>) {
    s.Some? && s.value != ""
  }

  function ReadDate(d: Option<DateInput>): (r: DateField)
    ensures r == Unset <==> d.None? || d.value.text == ""
    ensures r.At? ==> d.value.parsed == Some(r.time)
  {
    if d.None? || d.value.text == "" then Unset
    else if d.value.parsed.Some? then At(d.value.parsed.value)
    else Invalid
  }

  /** The JSON body of a lead POST or PUT; `None` marks an absent field
      (JavaScript `undefined`) */
  datatype LeadBody = LeadBody(
    name: Option<string>,
    email: Option<string>,
    company: Option<string>,
    linkedIn: Option<string>,
    notes: Option<string>,
    tags: Option<seq<string>>,
    stage: Option<string>,
    nextFollowUp: Option<DateInput>)

  /** The JSON body of a conversation POST or PUT */
  datatype ConversationBody = ConversationBody(
    leadId: Option<string>,
    kind: Option<string>,
    content: Option<string>,
    reminder: Option<DateInput>)

  /** An HTTP reply of a route handler */
  datatype Reply<T> =
    | Ok(value: T)
    | Created(value: T)
    | BadRequest(error: string)
    | NotFound(error: string)
    | ServerError(error: string)
  {
    function Status(): int {
      match this
      case Ok(_) => 200
      case Created(_) => 201
      case BadRequest(_) => 400
      case NotFound(_) => 404
      case ServerError(_) => 500
    }

    predicate Succeeded() {
      Ok? || Created?
    }
  }

  /** The body of the 500 the framework sends when a handler throws and
      nothing catches it */
  const Unhandled := "Internal Server Error"
}

=== FILE: dates.dfy ===
/** Dates as the client shows them: the `dd/mm/yyyy` string built from a
    local calendar date, and the Today/Tomorrow labels of the reminder list.
    Turning a timestamp into calendar fields belongs to the environment's
    time zone rules; a calendar date arrives here already split into year,
    month and day, and a calendar day is counted from a fixed zone offset. */
module Dates {
  import opened Crm
  import opened Text

  /** Local calendar fields, as `getFullYear()`, `getMonth() + 1` and
      `getDate()` return them */
  datatype CivilDate = CivilDate(year: int, month: int, day: int)

  /** `getMonth() + 1` and `getDate()` stay within these bounds */
  predicate ValidCivil(d: CivilDate) {
    1 <= d.month <= 12 && 1 <= d.day <= 31
  }

  predicate IsDigit(c: char) {
    '0' <= c <= '9'
  }

  predicate AllDigits(s: string) {
    forall i :: 0 <= i < |s| ==> IsDigit(s[i])
  }

  function DigitChar(n: nat): (c: char)
    requires n < 10
    ensures IsDigit(c)
  {
    ('0' as int + n) as char
  }

  function DigitValue(c: char): (n: nat)
    requires IsDigit(c)
    ensures n < 10 && DigitChar(n) == c
  {
    c as int - '0' as int
  }

  /** `String(n)` for a non-negative integer: its decimal digits, with no
      leading zero */
  function Decimal(n: nat): (r: string)
    ensures |r| >= 1 && AllDigits(r)
    ensures r[0] == '0' ==> n == 0
    decreases n
  {
    if n < 10 then [DigitChar(n)] else Decimal(n / 10) + [DigitChar(n % 10)]
  }

  /** The number a run of decimal digits denotes */
  function DigitsValue(s: string): nat
    requires AllDigits(s)
    decreases |s|
  {
    if |s| == 0 then 0 else DigitsValue(s[..|s| - 1]) * 10 + DigitValue(s[|s| - 1])
  }

  /** Reading back the digits `String(n)` writes gives `n` */
  lemma {:induction false} DecimalRoundTrip(n: nat)
    ensures DigitsValue(Decimal(n)) == n
    decreases n
  {
    if n >= 10 {
      DecimalRoundTrip(n / 10);
      var r := Decimal(n);
      assert r[..|r| - 1] == Decimal(n / 10);
    }
  }

  /** A leading zero does not change the value */
  lemma {:induction false} LeadingZero(s: string)
    requires AllDigits(s)
    ensures AllDigits("0" + s) && DigitsValue("0" + s) == DigitsValue(s)
    decreases |s|
  {
    if |s| > 0 {
      LeadingZero(s[..|s| - 1]);
      assert ("0" + s)[..|s|] == "0" + s[..|s| - 1];
    }
  }

  /** `String(n).padStart(2, "0")` */
  function Pad2(n: nat): (r: string)
    ensures AllDigits(r) && |r| >= 2
    ensures n < 100 ==> |r| == 2
    ensures DigitsValue(r) == n
  {
    DecimalRoundTrip(n);
    if n < 10 then
      LeadingZero(Decimal(n));
      "0" + Decimal(n)
    else
      Decimal(n)
  }

  /** `String(year)`: a '-' in front of the digits of a negative year */
  function YearString(y: int): (r: string)
    ensures r != "" && '/' !in r
  {
    if y < 0 then "-" + Decimal(-y) else Decimal(y)
  }

  /** The year a string written by `YearString` denotes */
  function ParseYear(s: string): (r: Option<int>)
  {
    if |s| > 1 && s[0] == '-' && AllDigits(s[1..]) then Some(-(DigitsValue(s[1..]) as int))
    else if |s| > 0 && AllDigits(s) then Some(DigitsValue(s))
    else None
  }

  lemma YearRoundTrip(y: int)
    ensures ParseYear(YearString(y)) == Some(y)
  {
    if y < 0 {
      NegativeYearRoundTrip(y);
    } else {
      DecimalRoundTrip(y);
      var d := Decimal(y);
      assert YearString(y) == d;
      assert d[0] != '-';
    }
  }

  lemma NegativeYearRoundTrip(y: int)
    requires y < 0
    ensures ParseYear(YearString(y)) == Some(y)
  {
    DecimalRoundTrip(-y);
    var d := Decimal(-y);
    var s := "-" + d;
    assert YearString(y) == s;
    assert |s| > 1 && s[0] == '-' && s[1..] == d;
  }

  /** `${day}/${month}/${year}`, day and month zero-padded to two digits */
  function FormatDate(d: CivilDate): (r: string)
    requires ValidCivil(d)
    ensures |r| >= 7
    ensures r[2] == '/' && r[5] == '/'
    ensures AllDigits(r[..2]) && AllDigits(r[3..5])
  {
    var r := Pad2(d.day) + "/" + Pad2(d.month) + "/" + YearString(d.year);
    assert r[..2] == Pad2(d.day) && r[3..5] == Pad2(d.month);
    r
  }

  /** A two-digit field of a `dd/mm/yyyy` string */
  function ParseField(s: string): (r: Option<nat>)
    ensures r.Some? ==> AllDigits(s) && r.value == DigitsValue(s)
  {
    if |s| == 2 && AllDigits(s) then Some(DigitsValue(s)) else None
  }

  /** Reads a `dd/mm/yyyy` string back into calendar fields */
  function ParseDate(s: string): (r: Option<CivilDate>)
    ensures r.Some? ==> ValidCivil(r.value)
  {
    var parts := Split(s, '/');
    if |parts| != 3 then None
    else
      match (ParseField(parts[0]), ParseField(parts[1]), ParseYear(parts[2]))
      case (Some(day), Some(month), Some(year)) =>
        var d := CivilDate(year, month, day);
        if ValidCivil(d) then Some(d) else None
      case _ => None
  }

  /** The written date reads back as the calendar date it was built from, so
      two dates that print alike are the same date */
  lemma {:induction false} FormatRoundTrip(d: CivilDate)
    requires ValidCivil(d)
    ensures ParseDate(FormatDate(d)) == Some(d)
  {
    var parts := [Pad2(d.day), Pad2(d.month), YearString(d.year)];
    assert parts[1..][1..] == [YearString(d.year)];
    assert Join(parts[1..], "/") == Pad2(d.month) + "/" + YearString(d.year);
    assert FormatDate(d) == Join(parts, "/");
    assert NoneContains(parts, '/');
    SplitJoin(parts, '/');
    YearRoundTrip(d.year);
  }

  lemma FormatInjective(d1: CivilDate, d2: CivilDate)
    requires ValidCivil(d1) && ValidCivil(d2)
    requires FormatDate(d1) == FormatDate(d2)
    ensures d1 == d2
  {
    FormatRoundTrip(d1);
    FormatRoundTrip(d2);
  }

  /** The local time zone, as an offset east of UTC in milliseconds */
  datatype Zone = Zone(offset: int)

  /** The local calendar day a timestamp falls on, counted from the epoch;
      `toDateString()` of two timestamps agrees exactly when this does */
  function DayOf(z: Zone, t: Time): int {
    (t + z.offset) / DayMs
  }

  /** The first millisecond of the local day containing `t` */
  function DayStart(z: Zone, t: Time): (r: Time)
    ensures r <= t < r + DayMs
  {
    DayOf(z, t) * DayMs - z.offset
  }

  datatype DayLabel = Today | Tomorrow | OnDate(time: Time)

  /** `formatDate` of the reminder list */
  function Label(z: Zone, now: Time, t: Time): (r: DayLabel)
    ensures r == Today <==> DayOf(z, t) == DayOf(z, now)
    ensures r == Tomorrow <==> DayOf(z, t) == DayOf(z, now) + 1
    ensures r.OnDate? ==> r.time == t
  {
    if DayOf(z, t) == DayOf(z, now) then Today
    else if DayOf(z, t) == DayOf(z, now) + 1 then Tomorrow
    else OnDate(t)
  }

  /** The same calendar day as `now`, or the next one, is a span of
      milliseconds starting at local midnight */
  lemma LabelBySpan(z: Zone, now: Time, t: Time)
    ensures var start := DayStart(z, now);
            && (Label(z, now, t) == Today <==> start <= t < start + DayMs)
            && (Label(z, now, t) == Tomorrow <==> start + DayMs <= t < start + 2 * DayMs)
  {
    var start := DayStart(z, now);
    var d := DayOf(z, now);
    assert start + z.offset == d * DayMs;
    if start <= t < start + DayMs {
      assert d * DayMs <= t + z.offset < d * DayMs + DayMs;
    }
    if start + DayMs <= t < start + 2 * DayMs {
      assert (d + 1) * DayMs <= t + z.offset < (d + 1) * DayMs + DayMs;
    }
  }
}

=== FILE: db.dfy ===
/** The database the route handlers reach through Prisma, as two tables kept
    in insertion order, with the lookups, joins and deletions the handlers
    issue. */
module Db {
  import opened Crm
  import opened Sorting

  datatype Store = Store(leads: seq<Lead>, conversations: seq<Conversation>)

  /** The store after a request, and the reply sent for it */
  datatype Step<T> = Step(store: Store, reply: Reply<T>)

  predicate UniqueLeadIds(leads: seq<Lead>) {
    forall i, j :: 0 <= i < j < |leads| ==> leads[i].id != leads[j].id
  }

  predicate UniqueConversationIds(cs: seq<Conversation>) {
    forall i, j :: 0 <= i < j < |cs| ==> cs[i].id != cs[j].id
  }

  predicate HasLead(leads: seq<Lead>, id: Id) {
    exists i :: 0 <= i < |leads| && leads[i].id == id
  }

  predicate HasConversation(cs: seq<Conversation>, id: Id) {
    exists i :: 0 <= i < |cs| && cs[i].id == id
  }

  /** Primary keys are unique and every conversation's foreign key resolves */
  predicate Valid(s: Store) {
    && UniqueLeadIds(s.leads)
    && UniqueConversationIds(s.conversations)
    && forall k :: 0 <= k < |s.conversations| ==> HasLead(s.leads, s.conversations[k].leadId)
  }

  /** `findUnique({ where: { id } })` on the lead table */
  function FindLead(leads: seq<Lead>, id: Id): (r: Option<nat>)
    ensures r.None? <==> !HasLead(leads, id)
    ensures r.Some? ==> r.value < |leads| && leads[r.value].id == id
  {
    if |leads| == 0 then None
    else if leads[0].id == id then Some(0)
    else
      var r := FindLead(leads[1..], id);
      assert forall i :: 1 <= i < |leads| ==> leads[i] == leads[1..][i - 1];
      if r.None? then None else Some(r.value + 1)
  }

  /** `findUnique({ where: { id } })` on the conversation table */
  function FindConversation(cs: seq<Conversation>, id: Id): (r: Option<nat>)
    ensures r.None? <==> !HasConversation(cs, id)
    ensures r.Some? ==> r.value < |cs| && cs[r.value].id == id
  {
    if |cs| == 0 then None
    else if cs[0].id == id then Some(0)
    else
      var r := FindConversation(cs[1..], id);
      assert forall i :: 1 <= i < |cs| ==> cs[i] == cs[1..][i - 1];
      if r.None? then None else Some(r.value + 1)
  }

  predicate BelongsTo(leadId: Id, c: Conversation) {
    c.leadId == leadId
  }

  /** The conversations of one lead, in table order
      (`include: { conversations: true }`, `where: { leadId }`) */
  function ConversationsOf(cs: seq<Conversation>, leadId: Id): (r: seq<Conversation>)
    ensures forall k :: 0 <= k < |r| ==> r[k].leadId == leadId
    ensures forall k :: 0 <= k < |cs| && cs[k].leadId == leadId ==> cs[k] in r
    ensures multiset(r) <= multiset(cs)
  {
    Filter(cs, c => BelongsTo(leadId, c))
  }

  /** A lead joined with its conversations */
  function ViewOf(s: Store, l: Lead): (v: LeadView)
    ensures v.lead == l
    ensures forall k :: 0 <= k < |v.conversations| ==> v.conversations[k].leadId == l.id
  {
    LeadView(l, ConversationsOf(s.conversations, l.id))
  }

  function ViewsOf(s: Store, leads: seq<Lead>): (r: seq<LeadView>)
    ensures |r| == |leads|
    ensures forall k :: 0 <= k < |r| ==> r[k] == ViewOf(s, leads[k])
  {
    seq(|leads|, k requires 0 <= k < |leads| => ViewOf(s, leads[k]))
  }

  /** The lead records of a list of views */
  function LeadsIn(vs: seq<LeadView>): (r: seq<Lead>)
    ensures |r| == |vs|
    ensures forall k :: 0 <= k < |r| ==> r[k] == vs[k].lead
  {
    seq(|vs|, k requires 0 <= k < |vs| => vs[k].lead)
  }

  lemma LeadsInViews(s: Store, leads: seq<Lead>)
    ensures LeadsIn(ViewsOf(s, leads)) == leads
  {
  }

  /** Rows reordered by `le`, each joined with its conversations */
  function SortedViews(s: Store, rows: seq<Lead>, le: (Lead, Lead) -> bool): (r: seq<LeadView>)
    requires TotalPreorder(le)
    ensures multiset(LeadsIn(r)) == multiset(rows)
    ensures forall i, j :: 0 <= i < j < |r| ==> le(r[i].lead, r[j].lead)
    ensures forall k :: 0 <= k < |r| ==> r[k] == ViewOf(s, r[k].lead)
  {
    var sorted := Sort(rows, le);
    LeadsInViews(s, sorted);
    ViewsOf(s, sorted)
  }

  predicate NotLead(id: Id, l: Lead) {
    l.id != id
  }

  predicate NotOwnedBy(id: Id, c: Conversation) {
    c.leadId != id
  }

  predicate NotConversation(id: Id, c: Conversation) {
    c.id != id
  }

  /** `conversation.deleteMany({ where: { leadId: id } })` followed by
      `lead.delete({ where: { id } })`, taken as one step */
  function DeleteCascade(s: Store, id: Id): (r: Store)
    ensures !HasLead(r.leads, id)
    ensures forall k :: 0 <= k < |r.conversations| ==> r.conversations[k].leadId != id
    ensures forall k :: 0 <= k < |s.leads| && s.leads[k].id != id ==> s.leads[k] in r.leads
    ensures forall k :: 0 <= k < |s.conversations| && s.conversations[k].leadId != id ==>
              s.conversations[k] in r.conversations
    ensures multiset(r.leads) <= multiset(s.leads)
    ensures multiset(r.conversations) <= multiset(s.conversations)
  {
    Store(Filter(s.leads, l => NotLead(id, l)), Filter(s.conversations, c => NotOwnedBy(id, c)))
  }

  /** The cascade keeps primary keys unique and leaves no conversation
      pointing at a missing lead */
  lemma DeleteCascadeKeepsValid(s: Store, id: Id)
    ensures Valid(s) ==> Valid(DeleteCascade(s, id))
  {
    if !Valid(s) {
      return;
    }
    var r := DeleteCascade(s, id);
    FilterKeepsUniqueLeads(s.leads, l => NotLead(id, l));
    FilterKeepsUniqueConversations(s.conversations, c => NotOwnedBy(id, c));
    forall k | 0 <= k < |r.conversations|
      ensures HasLead(r.leads, r.conversations[k].leadId)
    {
      var c := r.conversations[k];
      assert c in multiset(s.conversations);
      var m :| 0 <= m < |s.conversations| && s.conversations[m] == c;
      var i :| 0 <= i < |s.leads| && s.leads[i].id == c.leadId;
      assert s.leads[i] in r.leads;
    }
  }

  lemma {:induction false} FilterKeepsUniqueLeads(leads: seq<Lead>, keep: Lead -> bool)
    requires UniqueLeadIds(leads)
    ensures UniqueLeadIds(Filter(leads, keep))
    decreases |leads|
  {
    if |leads| > 0 {
      FilterKeepsUniqueLeads(leads[1..], keep);
      var rest := Filter(leads[1..], keep);
      var r := Filter(leads, keep);
      if keep(leads[0]) {
        assert r == [leads[0]] + rest;
        forall i, j | 0 <= i < j < |r|
          ensures r[i].id != r[j].id
        {
          if i == 0 {
            assert r[j] == rest[j - 1];
            assert rest[j - 1] in multiset(leads[1..]);
            var m :| 0 <= m < |leads[1..]| && leads[1..][m] == rest[j - 1];
            assert leads[1 + m] == r[j];
          }
        }
      } else {
        assert r == rest;
      }
    }
  }

  lemma {:induction false} FilterKeepsUniqueConversations(cs: seq<Conversation>, keep: Conversation -> bool)
    requires UniqueConversationIds(cs)
    ensures UniqueConversationIds(Filter(cs, keep))
    decreases |cs|
  {
    if |cs| > 0 {
      FilterKeepsUniqueConversations(cs[1..], keep);
      var rest := Filter(cs[1..], keep);
      var r := Filter(cs, keep);
      if keep(cs[0]) {
        assert r == [cs[0]] + rest;
        forall i, j | 0 <= i < j < |r|
          ensures r[i].id != r[j].id
        {
          if i == 0 {
            assert r[j] == rest[j - 1];
            assert rest[j - 1] in multiset(cs[1..]);
            var m :| 0 <= m < |cs[1..]| && cs[1..][m] == rest[j - 1];
            assert cs[1 + m] == r[j];
          }
        }
      } else {
        assert r == rest;
      }
    }
  }

  /** `conversation.delete({ where: { id } })` */
  function DeleteConversation(s: Store, id: Id): (r: Store)
    ensures r.leads == s.leads
    ensures !HasConversation(r.conversations, id)
    ensures forall k :: 0 <= k < |s.conversations| && s.conversations[k].id != id ==>
              s.conversations[k] in r.conversations
    ensures multiset(r.conversations) <= multiset(s.conversations)
  {
    Store(s.leads, Filter(s.conversations, c => NotConversation(id, c)))
  }

  lemma DeleteConversationKeepsValid(s: Store, id: Id)
    ensures Valid(s) ==> Valid(DeleteConversation(s, id))
  {
    if !Valid(s) {
      return;
    }
    var r := DeleteConversation(s, id);
    FilterKeepsUniqueConversations(s.conversations, c => NotConversation(id, c));
    forall k | 0 <= k < |r.conversations|
      ensures HasLead(r.leads, r.conversations[k].leadId)
    {
      assert r.conversations[k] in multiset(s.conversations);
    }
  }

  /** Newest creation first (`orderBy: { createdAt: "desc" }`) */
  predicate CreatedLater(a: Lead, b: Lead) {
    a.createdAt >= b.createdAt
  }

  /** Most recently updated first (`orderBy: { updatedAt: "desc" }`) */
  predicate UpdatedLater(a: Lead, b: Lead) {
    a.updatedAt >= b.updatedAt
  }

  /** Newest conversation first (`orderBy: { timestamp: "desc" }`) */
  predicate NewerConversation(a: Conversation, b: Conversation) {
    a.timestamp >= b.timestamp
  }

  lemma OrdersArePreorders()
    ensures TotalPreorder(CreatedLater)
    ensures TotalPreorder(UpdatedLater)
    ensures TotalPreorder(NewerConversation)
  {
  }
}

=== FILE: email.dfy ===
/** The email check shared by the lead API and the lead form. Both use the
    regular expression `^[^\s@]+@[^\s@]+\.[^\s@]+$`: three non-empty runs
    free of whitespace and '@', joined by '@' and then by '.'. */
module Email {
  import opened Text

  /** One `[^\s@]+` run */
  predicate Segment(s: string) {
    |s| > 0 && forall i :: 0 <= i < |s| ==> !IsSpace(s[i]) && s[i] != '@'
  }

  /** `s` is the regular expression's three runs, with the '@' at `at` and
      the separating '.' at `dot` */
  predicate PatternSplit(s: string, at: int, dot: int) {
    && 0 <= at < dot < |s|
    && s[at] == '@' && s[dot] == '.'
    && Segment(s[..at]) && Segment(s[at + 1..dot]) && Segment(s[dot + 1..])
  }

  /** The regular expression matches `s` (for some way of matching it) */
  ghost predicate MatchesPattern(s: string) {
    exists at, dot :: PatternSplit(s, at, dot)
  }

  predicate NoSpace(s: string) {
    forall i :: 0 <= i < |s| ==> !IsSpace(s[i])
  }

  /** A '.' that is neither the first nor the last character */
  predicate HasInnerDot(d: string) {
    exists k :: 0 < k < |d| - 1 && d[k] == '.'
  }

  /** `isValidEmail`, stated character by character: no whitespace, exactly
      one '@' with text before it, and a '.' strictly inside the text after it */
  predicate IsValidEmail(s: string) {
    && NoSpace(s)
    && '@' in s
    && var at := IndexOf(s, '@');
       && at > 0
       && '@' !in s[at + 1..]
       && HasInnerDot(s[at + 1..])
  }

  /** The character-level check accepts exactly what the regular expression
      matches */
  lemma ValidIffMatches(s: string)
    ensures IsValidEmail(s) <==> MatchesPattern(s)
  {
    if IsValidEmail(s) {
      ValidMatches(s);
    }
    if MatchesPattern(s) {
      var at, dot :| PatternSplit(s, at, dot);
      MatchesValid(s, at, dot);
    }
  }

  lemma ValidMatches(s: string)
    requires IsValidEmail(s)
    ensures MatchesPattern(s)
  {
    var at := IndexOf(s, '@');
    var d := s[at + 1..];
    var k :| 0 < k < |d| - 1 && d[k] == '.';
    var dot := at + 1 + k;
    assert forall i :: 0 <= i < |d| ==> d[i] != '@';
    assert s[at + 1..dot] == d[..k];
    assert s[dot + 1..] == d[k + 1..];
    assert PatternSplit(s, at, dot);
  }

  lemma MatchesValid(s: string, at: int, dot: int)
    requires PatternSplit(s, at, dot)
    ensures IsValidEmail(s)
  {
    assert s == s[..at] + [s[at]] + s[at + 1..dot] + [s[dot]] + s[dot + 1..];
    forall i | 0 <= i < |s|
      ensures !IsSpace(s[i])
    {
      if i < at {
        assert s[i] == s[..at][i];
      } else if at < i < dot {
        assert s[i] == s[at + 1..dot][i - at - 1];
      } else if dot < i {
        assert s[i] == s[dot + 1..][i - dot - 1];
      }
    }
    assert s[..at][..at] == s[..at];
    assert IndexOf(s, '@') == at by {
      assert '@' !in s[..at] by {
        forall i | 0 <= i < at ensures s[..at][i] != '@' {
          assert Segment(s[..at]);
        }
      }
      IndexOfAfter(s[..at], '@', s[at + 1..]);
      assert s == s[..at] + ['@'] + s[at + 1..];
    }
    var d := s[at + 1..];
    forall i | 0 <= i < |d|
      ensures d[i] != '@'
    {
      if at + 1 + i < dot {
        assert d[i] == s[at + 1..dot][i];
      } else if at + 1 + i > dot {
        assert d[i] == s[dot + 1..][at + i - dot];
      }
    }
    assert d[dot - at - 1] == '.';
  }

  /** A valid email has nothing for `trim` to remove */
  lemma ValidIsTrimmed(s: string)
    requires IsValidEmail(s)
    ensures !IsBlank(s)
    ensures Trim(s) == s
  {
    assert !IsSpace(s[0]) && !IsSpace(s[|s| - 1]);
  }

  /** The '@' of a valid email is its only one */
  lemma ValidHasOneAt(s: string, j: int)
    requires IsValidEmail(s)
    requires 0 <= j < |s| && s[j] == '@'
    ensures j == IndexOf(s, '@')
  {
    var at := IndexOf(s, '@');
    var d := s[at + 1..];
    assert forall i :: at < i < |s| ==> s[i] == d[i - at - 1];
    assert forall i :: 0 <= i < at ==> s[i] == s[..at][i];
  }

  lemma Examples()
    ensures IsValidEmail("a@b.com")
  {
    assert "a@b.com"[1..] == "@b.com";
    assert IndexOf("a@b.com", '@') == 1;
    assert "a@b.com"[2..][1] == '.';
  }

  /** A domain without a dot is refused */
  lemma NoDotExample()
    ensures !IsValidEmail("a@bcom")
  {
    assert IndexOf("a@bcom", '@') == 1;
  }

  lemma RejectedExamples()
    ensures !IsValidEmail("@b.com")
    ensures !IsValidEmail("a@b.")
    ensures !IsValidEmail("a b@c.de")
  {
    assert IndexOf("a@b.", '@') == 1;
    assert IsSpace("a b@c.de"[1]);
  }
}

=== FILE: follow_up.dfy ===
/** What a lead card shows about a lead's conversations: the next follow-up
    (the latest reminder, found by a left-to-right scan that replaces its
    candidate only on a strictly later one), the five most recent entries
    of the detail view, and the colour class of each tag. */
module FollowUp {
  import opened Crm
  import opened Sorting
  import opened Dates

  predicate HasReminder(c: Conversation) {
    c.reminder.Some?
  }

  function ReminderAt(cs: seq<Conversation>, k: nat): Time
    requires k < |cs| && HasReminder(cs[k])
  {
    cs[k].reminder.value
  }

  /** The index of the first latest reminder; `None` when no conversation
      has one. This is the `reduce` over the conversation list. */
  function LatestIndex(cs: seq<Conversation>): (r: Option<nat>)
    ensures r.None? <==> forall k :: 0 <= k < |cs| ==> !HasReminder(cs[k])
    ensures r.Some? ==> r.value < |cs| && HasReminder(cs[r.value])
    ensures r.Some? ==> forall k :: 0 <= k < |cs| && HasReminder(cs[k]) ==>
              ReminderAt(cs, k) <= ReminderAt(cs, r.value)
    ensures r.Some? ==> forall k :: 0 <= k < r.value && HasReminder(cs[k]) ==>
              ReminderAt(cs, k) < ReminderAt(cs, r.value)
    decreases |cs|
  {
    if |cs| == 0 then None
    else
      var init := cs[..|cs| - 1];
      var acc := LatestIndex(init);
      var c := cs[|cs| - 1];
      assert forall k :: 0 <= k < |init| ==> init[k] == cs[k];
      if HasReminder(c) && (acc.None? || c.reminder.value > ReminderAt(cs, acc.value)) then Some(|cs| - 1)
      else acc
  }

  /** The latest reminder is determined by what it promises: any index that
      holds a reminder no other exceeds, and that no earlier one equals, is
      the one the scan returns */
  lemma {:induction false} LatestIndexUnique(cs: seq<Conversation>, m: nat)
    requires m < |cs| && HasReminder(cs[m])
    requires forall k :: 0 <= k < |cs| && HasReminder(cs[k]) ==> ReminderAt(cs, k) <= ReminderAt(cs, m)
    requires forall k :: 0 <= k < m && HasReminder(cs[k]) ==> ReminderAt(cs, k) < ReminderAt(cs, m)
    ensures LatestIndex(cs) == Some(m)
  {
    var r := LatestIndex(cs);
    assert r.Some?;
    var i := r.value;
    assert ReminderAt(cs, i) == ReminderAt(cs, m);
    assert i == m;
  }

  /** `latestFollowUp`: the time of the latest reminder */
  function LatestFollowUp(cs: seq<Conversation>): (r: Option<Time>)
    ensures r.None? <==> forall k :: 0 <= k < |cs| ==> !HasReminder(cs[k])
    ensures r.Some? ==> exists k :: 0 <= k < |cs| && HasReminder(cs[k]) && ReminderAt(cs, k) == r.value
    ensures r.Some? ==> forall k :: 0 <= k < |cs| && HasReminder(cs[k]) ==> ReminderAt(cs, k) <= r.value
  {
    match LatestIndex(cs)
    case None => None
    case Some(i) => Some(ReminderAt(cs, i))
  }

  /** `hasFollowUp`, which also decides whether the detail view shows its
      follow-up section */
  function HasFollowUp(cs: seq<Conversation>): (b: bool)
    ensures b <==> exists k :: 0 <= k < |cs| && HasReminder(cs[k])
  {
    LatestFollowUp(cs).Some?
  }

  /** The card's "Next Follow Up" line: the date of the latest reminder in
      the local calendar `cal`, or "-" */
  function FollowUpLine(cs: seq<Conversation>, cal: Time -> CivilDate): (r: string)
    requires forall t :: ValidCivil(cal(t))
    ensures r == "-" <==> !HasFollowUp(cs)
    ensures HasFollowUp(cs) ==> ParseDate(r) == Some(cal(LatestFollowUp(cs).value))
  {
    match LatestFollowUp(cs)
    case None => "-"
    case Some(t) =>
      FormatRoundTrip(cal(t));
      FormatDate(cal(t))
  }

  /** Most entries the detail view lists */
  const RecentLimit: nat := 5

  /** `conversations.slice(0, 5)`: the first five, in list order */
  function RecentConversations(cs: seq<Conversation>): (r: seq<Conversation>)
    ensures |r| <= RecentLimit
    ensures |r| == RecentLimit || r == cs
    ensures |r| <= |cs| && r == cs[..|r|]
  {
    Take(cs, RecentLimit)
  }

  /** The seven tags that have a colour, with their classes */
  const TagClasses: seq<(string, string)> := [
    ("High Value", "bg-purple-100 text-purple-800"),
    ("Follow Up", "bg-amber-100 text-amber-800"),
    ("New Lead", "bg-blue-100 text-blue-800"),
    ("Meeting", "bg-green-100 text-green-800"),
    ("Urgent", "bg-red-100 text-red-800"),
    ("Enterprise", "bg-indigo-100 text-indigo-800"),
    ("SMB", "bg-teal-100 text-teal-800")
  ]

  const DefaultTagClass := "bg-gray-100 text-gray-800"

  predicate KnownTag(tag: string) {
    exists k :: 0 <= k < |TagClasses| && TagClasses[k].0 == tag
  }

  function LookupTag(table: seq<(string, string)>, tag: string): (r: Option<string>)
    ensures r.None? <==> forall k :: 0 <= k < |table| ==> table[k].0 != tag
    ensures r.Some? ==> exists k :: 0 <= k < |table| && table[k] == (tag, r.value)
  {
    if |table| == 0 then None
    else if table[0].0 == tag then Some(table[0].1)
    else
      var r := LookupTag(table[1..], tag);
      assert forall k :: 1 <= k < |table| ==> table[k] == table[1..][k - 1];
      r
  }

  /** `getTagColorClass`, looking only at the map's own seven entries */
  function TagColorClass(tag: string): (r: string)
    ensures !KnownTag(tag) ==> r == DefaultTagClass
    ensures KnownTag(tag) ==> exists k :: 0 <= k < |TagClasses| && TagClasses[k] == (tag, r)
  {
    match LookupTag(TagClasses, tag)
    case None => DefaultTagClass
    case Some(c) => c
  }

  lemma TagColorExamples()
    ensures TagColorClass("Urgent") == "bg-red-100 text-red-800"
    ensures TagColorClass("urgent") == DefaultTagClass
    ensures TagColorClass("constructor") == DefaultTagClass
  {
    assert TagClasses[4] == ("Urgent", "bg-red-100 text-red-800");
    assert !KnownTag("urgent") && !KnownTag("constructor") by {
      forall k | 0 <= k < |TagClasses|
        ensures TagClasses[k].0 != "urgent" && TagClasses[k].0 != "constructor"
      {
        if k == 4 {
          assert TagClasses[k].0[0] == 'U';
        } else {
          assert |TagClasses[k].0| != 6 && |TagClasses[k].0| != 11;
        }
      }
    }
  }

  /** Names every plain JavaScript object inherits from `Object.prototype`;
      indexing an object literal with one of them yields a function (or the
      prototype object), never `undefined` */
  const InheritedKeys: seq<string> := [
    "constructor", "hasOwnProperty", "isPrototypeOf", "propertyIsEnumerable",
    "toLocaleString", "toString", "valueOf", "__proto__",
    "__defineGetter__", "__defineSetter__", "__lookupGetter__", "__lookupSetter__"
  ]

  /** What `tagMap[tag] || "bg-gray-100 text-gray-800"` evaluates to */
  datatype TagLookup = ClassName(name: string) | InheritedMember(key: string)

  function TagColorClassAsWritten(tag: string): (r: TagLookup)
    ensures KnownTag(tag) ==> r == ClassName(TagColorClass(tag))
    ensures !KnownTag(tag) && tag !in InheritedKeys ==> r == ClassName(DefaultTagClass)
    ensures !KnownTag(tag) && tag in InheritedKeys ==> r == InheritedMember(tag)
  {
    match LookupTag(TagClasses, tag)
    case Some(c) => ClassName(c)
    case None => if tag in InheritedKeys then InheritedMember(tag) else ClassName(DefaultTagClass)
  }

  /** A lead tagged "constructor" gets the text of a function as its class
      list instead of the gray default */
  lemma InheritedKeyCounterexample()
    ensures TagColorClassAsWritten("constructor") == InheritedMember("constructor")
    ensures TagColorClassAsWritten("constructor") != ClassName(DefaultTagClass)
  {
    assert "constructor" == InheritedKeys[0];
  }
}

=== FILE: lead_api.dfy ===
/** The lead handlers under /api/leads: GET lists every lead, POST validates
    and creates one, PUT patches one by `?id=`, DELETE removes one together
    with its conversations. */
module LeadApi {
  import opened Crm
  import opened Text
  import opened Email
  import opened Sorting
  import opened Db

  const NameRequired := "Name is required."
  const EmailRequired := "Email is required."
  const EmailInvalid := "Email is not valid."
  const CompanyRequired := "Company is required."
  const StageInvalid := "Stage is required and must be valid."
  const InvalidJson := "Invalid JSON in request body"
  const IdRequired := "Lead ID is required"
  const LeadNotFound := "Lead not found"
  const UpdateFailed := "Failed to update lead"
  const Deleted := "Lead and associated conversations deleted successfully"

  /** A string field that is present and not only whitespace */
  predicate Filled(f: Option<string>) {
    f.Some? && !IsBlank(f.value)
  }

  /** Every backend check of POST passes */
  predicate CreateAccepted(b: LeadBody) {
    && Filled(b.name)
    && Filled(b.email)
    && IsValidEmail(b.email.value)
    && Filled(b.company)
    && b.stage.Some? && IsStageKey(b.stage.value)
  }

  /** The message of the first failing backend check of POST, checked in the
      order name, email present, email valid, company, stage */
  function CreateError(b: LeadBody): (r: Option<string>)
    ensures r.None? <==> CreateAccepted(b)
    ensures r == Some(NameRequired) <==> !Filled(b.name)
    ensures r == Some(EmailRequired) <==> Filled(b.name) && !Filled(b.email)
    ensures r == Some(EmailInvalid) <==>
              Filled(b.name) && Filled(b.email) && !IsValidEmail(b.email.value)
    ensures r == Some(CompanyRequired) <==>
              Filled(b.name) && Filled(b.email) && IsValidEmail(b.email.value) && !Filled(b.company)
    ensures r == Some(StageInvalid) <==>
              && Filled(b.name) && Filled(b.email) && IsValidEmail(b.email.value) && Filled(b.company)
              && !(b.stage.Some? && IsStageKey(b.stage.value))
  {
    if !Filled(b.name) then Some(NameRequired)
    else if !Filled(b.email) then Some(EmailRequired)
    else if !IsValidEmail(b.email.value) then Some(EmailInvalid)
    else if !Filled(b.company) then Some(CompanyRequired)
    else if !(b.stage.Some? && IsStageKey(b.stage.value)) then Some(StageInvalid)
    else None
  }

  /** `x?.trim() || ""` */
  function TrimmedOrEmpty(f: Option<string>): (r: string)
    ensures IsTrimmed(r)
    ensures f.None? ==> r == ""
    ensures f.Some? ==> r == Trim(f.value)
  {
    if f.Some? then Trim(f.value) else ""
  }

  /** The row `lead.create` stores for an accepted body */
  function NewLead(b: LeadBody, id: Id, now: Time): (l: Lead)
    requires CreateAccepted(b)
    ensures l.id == id && l.createdAt == now && l.updatedAt == now
    ensures l.name == Trim(b.name.value) && !IsBlank(l.name) && IsTrimmed(l.name)
    ensures l.email == b.email.value && IsValidEmail(l.email)
    ensures l.company == Trim(b.company.value) && !IsBlank(l.company) && IsTrimmed(l.company)
    ensures IsStageKey(l.stage) && l.stage == b.stage.value
    ensures l.linkedIn == TrimmedOrEmpty(b.linkedIn) && l.notes == Some(TrimmedOrEmpty(b.notes))
    ensures b.linkedIn.None? ==> l.linkedIn == ""
    ensures b.notes.None? ==> l.notes == Some("")
    ensures b.tags.None? ==> l.tags == []
    ensures b.tags.Some? ==> l.tags == b.tags.value
    ensures l.nextFollowUp.Some? <==> ReadDate(b.nextFollowUp).At?
    ensures l.nextFollowUp.Some? ==> b.nextFollowUp.value.parsed == l.nextFollowUp
  {
    ValidIsTrimmed(b.email.value);
    Lead(
      id := id,
      name := Trim(b.name.value),
      email := Trim(b.email.value),
      company := Trim(b.company.value),
      linkedIn := TrimmedOrEmpty(b.linkedIn),
      notes := Some(TrimmedOrEmpty(b.notes)),
      tags := if b.tags.Some? then b.tags.value else [],
      stage := b.stage.value,
      nextFollowUp := match ReadDate(b.nextFollowUp) case At(t) => Some(t) case _ => None,
      createdAt := now,
      updatedAt := now)
  }

  /** POST /api/leads. `body` is `None` when the request body is not JSON;
      `newId` is the key the database assigns and `now` its clock. */
  function Post(s: Store, body: Option<LeadBody>, newId: Id, now: Time): (r: Step<Lead>)
    requires !HasLead(s.leads, newId)
    ensures body.None? ==> r.reply == BadRequest(InvalidJson)
    ensures body.Some? && CreateError(body.value).Some? ==>
              r.reply == BadRequest(CreateError(body.value).value)
    ensures r.reply.Created? <==> body.Some? && CreateAccepted(body.value)
    ensures !r.reply.Created? ==> r.store == s && r.reply.BadRequest?
    ensures r.reply.Created? ==>
              && r.store.leads == s.leads + [r.reply.value]
              && r.store.conversations == s.conversations
              && r.reply.value.id == newId
              && IsStageKey(r.reply.value.stage)
              && IsValidEmail(r.reply.value.email)
              && !IsBlank(r.reply.value.name) && !IsBlank(r.reply.value.company)
    ensures r.reply.Created? ==> r.reply.value == NewLead(body.value, newId, now)
    ensures Valid(s) ==> Valid(r.store)
  {
    if body.None? then Step(s, BadRequest(InvalidJson))
    else
      var err := CreateError(body.value);
      if err.Some? then Step(s, BadRequest(err.value))
      else
        var l := NewLead(body.value, newId, now);
        var s' := Store(s.leads + [l], s.conversations);
        AppendLeadKeepsValid(s, l);
        Step(s', Created(l))
  }

  lemma AppendLeadKeepsValid(s: Store, l: Lead)
    requires !HasLead(s.leads, l.id)
    ensures Valid(s) ==> Valid(Store(s.leads + [l], s.conversations))
  {
    var leads' := s.leads + [l];
    if Valid(s) {
      forall k | 0 <= k < |s.conversations|
        ensures HasLead(leads', s.conversations[k].leadId)
      {
        assert HasLead(s.leads, s.conversations[k].leadId);
        var i :| 0 <= i < |s.leads| && s.leads[i].id == s.conversations[k].leadId;
        assert leads'[i] == s.leads[i];
      }
    }
  }

  /** The row after `lead.update`: Prisma skips every field the body leaves
      `undefined`, so an absent field keeps its stored value */
  function Patch(l: Lead, b: LeadBody, now: Time): (r: Lead)
    requires ReadDate(b.nextFollowUp) != Invalid
    ensures r.id == l.id && r.createdAt == l.createdAt && r.updatedAt == now
    ensures r.name == (if b.name.Some? then b.name.value else l.name)
    ensures r.email == (if b.email.Some? then b.email.value else l.email)
    ensures r.company == (if b.company.Some? then b.company.value else l.company)
    ensures r.linkedIn == (if b.linkedIn.Some? then b.linkedIn.value else l.linkedIn)
    ensures r.notes == (if b.notes.Some? then b.notes else l.notes)
    ensures r.tags == (if b.tags.Some? then b.tags.value else l.tags)
    ensures r.stage == (if b.stage.Some? then b.stage.value else l.stage)
    ensures r.nextFollowUp == NextFollowUp(l.nextFollowUp, b.nextFollowUp)
  {
    l.(name := if b.name.Some? then b.name.value else l.name,
       email := if b.email.Some? then b.email.value else l.email,
       company := if b.company.Some? then b.company.value else l.company,
       linkedIn := if b.linkedIn.Some? then b.linkedIn.value else l.linkedIn,
       notes := if b.notes.Some? then b.notes else l.notes,
       tags := if b.tags.Some? then b.tags.value else l.tags,
       stage := if b.stage.Some? then b.stage.value else l.stage,
       nextFollowUp := NextFollowUp(l.nextFollowUp, b.nextFollowUp),
       updatedAt := now)
  }

  /** `nextFollowUp: body.nextFollowUp ? new Date(body.nextFollowUp) : undefined`:
      the stored date is kept when the body gives none */
  function NextFollowUp(current: Option<Time>, d: Option<DateInput>): (r: Option<Time>)
    requires ReadDate(d) != Invalid
    ensures ReadDate(d) == Unset ==> r == current
    ensures ReadDate(d).At? ==> r.Some? && d.value.parsed == r
  {
    match ReadDate(d)
    case At(t) => Some(t)
    case _ => current
  }

  /** The body `{}` writes nothing but the update time */
  lemma PatchEmptyBody(l: Lead, now: Time)
    ensures Patch(l, LeadBody(None, None, None, None, None, None, None, None), now) == l.(updatedAt := now)
  {
  }

  /** Sending the same update twice leaves the row as the first one did */
  lemma PatchIdempotent(l: Lead, b: LeadBody, now: Time)
    requires ReadDate(b.nextFollowUp) != Invalid
    ensures Patch(Patch(l, b, now), b, now) == Patch(l, b, now)
  {
  }

  /** A body the database accepts for an update: the stage, when given, is
      an enum key and the follow-up date, when given, is a real date */
  predicate UpdateAccepted(b: LeadBody) {
    && (b.stage.Some? ==> IsStageKey(b.stage.value))
    && ReadDate(b.nextFollowUp) != Invalid
  }

  /** PUT /api/leads?id=. A missing id is rejected before anything else, an
      unknown one before any write. */
  function Put(s: Store, id: Option<string>, body: Option<LeadBody>, now: Time): (r: Step<LeadView>)
    ensures !Truthy(id) ==> r.reply == BadRequest(IdRequired)
    ensures Truthy(id) && body.Some? && !HasLead(s.leads, id.value) ==> r.reply == NotFound(LeadNotFound)
    ensures r.reply.Ok? <==>
              Truthy(id) && body.Some? && HasLead(s.leads, id.value) && UpdateAccepted(body.value)
    ensures !r.reply.Ok? ==> r.store == s
    ensures r.reply.Ok? ==>
              && r.store.conversations == s.conversations
              && |r.store.leads| == |s.leads|
              && (forall k :: 0 <= k < |s.leads| && s.leads[k].id != id.value ==> r.store.leads[k] == s.leads[k])
              && r.reply.value.lead.id == id.value
              && r.reply.value.lead in r.store.leads
              && (ReadDate(body.value.nextFollowUp) == Unset ==>
                    exists k :: 0 <= k < |s.leads| && s.leads[k].id == id.value &&
                                r.reply.value.lead.nextFollowUp == s.leads[k].nextFollowUp)
    ensures r.reply.Ok? && Valid(s) ==>
              forall k :: 0 <= k < |s.leads| && s.leads[k].id == id.value ==>
                && r.store.leads[k] == Patch(s.leads[k], body.value, now)
                && r.reply.value.lead == r.store.leads[k]
    ensures Valid(s) ==> Valid(r.store)
  {
    if !Truthy(id) then Step(s, BadRequest(IdRequired))
    else if body.None? then Step(s, ServerError(UpdateFailed))
    else
      match FindLead(s.leads, id.value)
      case None => Step(s, NotFound(LeadNotFound))
      case Some(i) =>
        if !UpdateAccepted(body.value) then Step(s, ServerError(UpdateFailed))
        else
          var l := Patch(s.leads[i], body.value, now);
          var s' := Store(s.leads[i := l], s.conversations);
          ReplaceLeadKeepsValid(s, i, l);
          assert s'.leads[i] == l;
          Step(s', Ok(ViewOf(s', l)))
  }

  /** Overwriting a row with one of the same key keeps the store valid, and
      the key of row `i` is found only at `i` */
  lemma ReplaceLeadKeepsValid(s: Store, i: nat, l: Lead)
    requires i < |s.leads| && l.id == s.leads[i].id
    ensures Valid(s) ==> Valid(Store(s.leads[i := l], s.conversations))
    ensures Valid(s) ==> forall k :: 0 <= k < |s.leads| && k != i ==> s.leads[k].id != l.id
  {
    var leads' := s.leads[i := l];
    if Valid(s) {
      forall k | 0 <= k < |s.conversations|
        ensures HasLead(leads', s.conversations[k].leadId)
      {
        var j :| 0 <= j < |s.leads| && s.leads[j].id == s.conversations[k].leadId;
        assert leads'[j].id == s.leads[j].id;
      }
    }
  }

  /** DELETE /api/leads?id= */
  function Delete(s: Store, id: Option<string>): (r: Step<string>)
    ensures !Truthy(id) ==> r.reply == BadRequest(IdRequired)
    ensures Truthy(id) && !HasLead(s.leads, id.value) ==> r.reply == NotFound(LeadNotFound)
    ensures r.reply.Ok? <==> Truthy(id) && HasLead(s.leads, id.value)
    ensures !r.reply.Ok? ==> r.store == s
    ensures r.reply.Ok? ==>
              && !HasLead(r.store.leads, id.value)
              && (forall k :: 0 <= k < |r.store.conversations| ==> r.store.conversations[k].leadId != id.value)
              && (forall k :: 0 <= k < |s.leads| && s.leads[k].id != id.value ==> s.leads[k] in r.store.leads)
              && (forall k :: 0 <= k < |s.conversations| && s.conversations[k].leadId != id.value ==>
                    s.conversations[k] in r.store.conversations)
              && multiset(r.store.leads) <= multiset(s.leads)
              && multiset(r.store.conversations) <= multiset(s.conversations)
    ensures r.reply.Ok? ==> r.store == DeleteCascade(s, id.value) && r.reply.value == Deleted
    ensures Valid(s) ==> Valid(r.store)
  {
    if !Truthy(id) then Step(s, BadRequest(IdRequired))
    else if !HasLead(s.leads, id.value) then Step(s, NotFound(LeadNotFound))
    else
      DeleteCascadeKeepsValid(s, id.value);
      Step(DeleteCascade(s, id.value), Ok(Deleted))
  }

  /** GET /api/leads: every lead with its conversations, newest created first */
  function List(s: Store): (r: seq<LeadView>)
    ensures multiset(LeadsIn(r)) == multiset(s.leads)
    ensures forall i, j :: 0 <= i < j < |r| ==> r[i].lead.createdAt >= r[j].lead.createdAt
    ensures forall k :: 0 <= k < |r| ==> r[k] == ViewOf(s, r[k].lead)
  {
    OrdersArePreorders();
    var sorted := Sort(s.leads, CreatedLater);
    LeadsInViews(s, sorted);
    ViewsOf(s, sorted)
  }
}

=== FILE: lead_form.dfy ===
/** The "add lead" form: its initial state, the checks run before sending,
    and the JSON body it posts to /api/leads. */
module LeadForm {
  import opened Crm
  import opened Text
  import opened Email
  import opened Sorting
  import LeadApi

  /** The form's fields as the inputs hold them */
  datatype Form = Form(
    name: string,
    email: string,
    company: string,
    linkedIn: string,
    notes: string,
    tags: string,
    stage: string,
    nextFollowUp: string)

  /** A fresh form: everything empty, the stage `defaultStage || "NEW"` */
  function InitialForm(defaultStage: Option<string>): (f: Form)
    ensures f.name == "" && f.email == "" && f.company == "" && f.tags == "" && f.nextFollowUp == ""
    ensures f.linkedIn == "" && f.notes == ""
    ensures Truthy(defaultStage) ==> f.stage == defaultStage.value
    ensures !Truthy(defaultStage) ==> f.stage == New.Key()
    ensures f.stage != ""
  {
    Form("", "", "", "", "", "", if Truthy(defaultStage) then defaultStage.value else "NEW", "")
  }

  const NameRequired := "Name is required."
  const EmailRequired := "Email is required."
  const EmailInvalid := "Email is not valid."
  const StageRequired := "Stage is required."

  /** `validate`: "" when the form may be sent, otherwise the message of the
      first failing check, in the order name, email present, email valid,
      stage. Company is not looked at. */
  function Validate(f: Form): (r: string)
    ensures r == "" <==> !IsBlank(f.name) && !IsBlank(f.email) && IsValidEmail(f.email) && f.stage != ""
    ensures r == NameRequired <==> IsBlank(f.name)
    ensures r == EmailRequired <==> !IsBlank(f.name) && IsBlank(f.email)
    ensures r == EmailInvalid <==> !IsBlank(f.name) && !IsBlank(f.email) && !IsValidEmail(f.email)
    ensures r == StageRequired <==>
              !IsBlank(f.name) && !IsBlank(f.email) && IsValidEmail(f.email) && f.stage == ""
  {
    if IsBlank(f.name) then NameRequired
    else if IsBlank(f.email) then EmailRequired
    else if !IsValidEmail(f.email) then EmailInvalid
    else if f.stage == "" then StageRequired
    else ""
  }

  function TrimAll(parts: seq<string>): (r: seq<string>)
    ensures |r| == |parts|
    ensures forall k :: 0 <= k < |r| ==> r[k] == Trim(parts[k])
  {
    seq(|parts|, k requires 0 <= k < |parts| => Trim(parts[k]))
  }

  predicate NonEmpty(s: string) {
    s != ""
  }

  /** A tag list as the form sends it: no empty tag, no tag with whitespace
      at either end, none containing a comma */
  predicate CleanTags(tags: seq<string>) {
    forall k :: 0 <= k < |tags| ==> tags[k] != "" && IsTrimmed(tags[k]) && ',' !in tags[k]
  }

  /** `tags.split(",").map(t => t.trim()).filter(Boolean)` */
  function ParseTags(s: string): (r: seq<string>)
    ensures CleanTags(r)
    ensures forall t :: t in r <==> exists p :: p in Split(s, ',') && t == Trim(p) && t != ""
    ensures IsSubsequence(r, TrimAll(Split(s, ',')))
  {
    var pieces := Split(s, ',');
    var r := Filter(TrimAll(pieces), NonEmpty);
    KeptPiecesClean(pieces, r);
    KeptPieces(pieces, r);
    FilterIsSubsequence(TrimAll(pieces), NonEmpty);
    r
  }

  /** Trimming comma-free pieces and dropping the empty ones leaves clean tags */
  lemma KeptPiecesClean(pieces: seq<string>, r: seq<string>)
    requires NoneContains(pieces, ',')
    requires r == Filter(TrimAll(pieces), NonEmpty)
    ensures CleanTags(r)
  {
    var trimmed := TrimAll(pieces);
    forall k | 0 <= k < |r|
      ensures ',' !in r[k] && IsTrimmed(r[k])
    {
      assert r[k] in multiset(trimmed);
      var m :| 0 <= m < |trimmed| && trimmed[m] == r[k];
      TrimKeepsOut(pieces[m], ',');
    }
  }

  /** A tag is kept exactly when it is the non-empty trim of some piece */
  lemma KeptPieces(pieces: seq<string>, r: seq<string>)
    requires r == Filter(TrimAll(pieces), NonEmpty)
    ensures forall t :: t in r <==> exists p :: p in pieces && t == Trim(p) && t != ""
  {
    var trimmed := TrimAll(pieces);
    forall t
      ensures t in r <==> exists p :: p in pieces && t == Trim(p) && t != ""
    {
      if t in r {
        assert t in multiset(trimmed);
        var m :| 0 <= m < |trimmed| && trimmed[m] == t;
        assert pieces[m] in pieces && t == Trim(pieces[m]);
      }
      if exists p :: p in pieces && t == Trim(p) && t != "" {
        var p :| p in pieces && t == Trim(p) && t != "";
        var m :| 0 <= m < |pieces| && pieces[m] == p;
        assert trimmed[m] == t && NonEmpty(trimmed[m]);
      }
    }
  }

  /** Each non-empty trimmed piece is kept as often as it occurs, and the
      empty one never */
  lemma ParseTagsCounts(s: string)
    ensures forall t :: multiset(ParseTags(s))[t] ==
                        if t != "" then multiset(TrimAll(Split(s, ',')))[t] else 0
  {
    FilterCounts(TrimAll(Split(s, ',')), NonEmpty);
  }

  /** Trimming removes characters, never adds one */
  lemma TrimKeepsOut(s: string, c: char)
    requires c !in s
    ensures c !in Trim(s)
  {
    var r := Trim(s);
    var i, j :| CutFrom(s, r, i, j);
    forall k | 0 <= k < |r|
      ensures r[k] != c
    {
      assert r[k] == s[i + k];
    }
  }

  /** Typing a clean tag list with commas between gives it back */
  lemma {:induction false} ParseTagsJoin(tags: seq<string>)
    requires CleanTags(tags)
    ensures ParseTags(Join(tags, ",")) == tags
  {
    if |tags| == 0 {
      assert Split("", ',') == [""];
      assert TrimAll([""]) == [""];
    } else {
      assert NoneContains(tags, ',');
      SplitJoin(tags, ',');
      assert TrimAll(tags) == tags;
      FilterOfAllKept(tags, NonEmpty);
    }
  }

  /** What the form posts once `validate` passes. The follow-up date goes as
      typed, and `null` when empty; `followUpParsed` is what `Date.parse`
      makes of it on the server. */
  function Submit(f: Form, followUpParsed: Option<Time>): (r: Option<LeadBody>)
    ensures r.None? <==> Validate(f) != ""
    ensures r.Some? ==>
              && r.value.name == Some(f.name) && r.value.email == Some(f.email)
              && r.value.company == Some(f.company) && r.value.linkedIn == Some(f.linkedIn)
              && r.value.notes == Some(f.notes) && r.value.stage == Some(f.stage)
              && r.value.tags == Some(ParseTags(f.tags))
              && (f.nextFollowUp == "" <==> r.value.nextFollowUp.None?)
              && (r.value.nextFollowUp.Some? ==> r.value.nextFollowUp.value == DateInput(f.nextFollowUp, followUpParsed))
  {
    if Validate(f) != "" then None
    else
      Some(LeadBody(
        name := Some(f.name),
        email := Some(f.email),
        company := Some(f.company),
        linkedIn := Some(f.linkedIn),
        notes := Some(f.notes),
        tags := Some(ParseTags(f.tags)),
        stage := Some(f.stage),
        nextFollowUp := if f.nextFollowUp == "" then None else Some(DateInput(f.nextFollowUp, followUpParsed))))
  }

  /** A form that passes its own checks, with a stage from the selector, is
      refused by the server exactly when its company is blank, and then with
      the server's company message */
  lemma ServerRefusesOnlyBlankCompany(f: Form, followUpParsed: Option<Time>)
    requires Validate(f) == ""
    requires IsStageKey(f.stage)
    ensures var b := Submit(f, followUpParsed).value;
            && (LeadApi.CreateAccepted(b) <==> !IsBlank(f.company))
            && (IsBlank(f.company) ==> LeadApi.CreateError(b) == Some(LeadApi.CompanyRequired))
  {
  }
}

=== FILE: lead_routes.dfy ===
/** The older lead handlers in Routes/Lead.ts. They differ from /api/leads:
    GET also serves one lead by `?id=` and filters by `?stage=`, listing by
    last update; POST only checks that name, email and company are
    non-empty and defaults the stage to NEW; PUT never touches the
    follow-up date. */
module LeadRoutes {
  import opened Crm
  import opened Sorting
  import opened Db
  import LeadApi

  const FieldsRequired := "Name, email, and company are required fields"
  const CreateFailed := "Failed to create lead"

  /** GET ?id= : that lead with its conversations, or 404 */
  function GetOne(s: Store, id: Id): (r: Reply<LeadView>)
    requires id != ""
    ensures r.Ok? <==> HasLead(s.leads, id)
    ensures !r.Ok? ==> r == NotFound(LeadApi.LeadNotFound)
    ensures r.Ok? ==> r.value.lead in s.leads && r.value.lead.id == id && r.value == ViewOf(s, r.value.lead)
  {
    match FindLead(s.leads, id)
    case None => NotFound(LeadApi.LeadNotFound)
    case Some(i) => Ok(ViewOf(s, s.leads[i]))
  }

  predicate HasStage(stage: string, l: Lead) {
    l.stage == stage
  }

  /** The rows the query selects: all of them, or those of one stage */
  function StageRows(leads: seq<Lead>, stage: Option<string>): (r: seq<Lead>)
    ensures !Truthy(stage) ==> r == leads
    ensures Truthy(stage) ==>
              && (forall k :: 0 <= k < |r| ==> r[k].stage == stage.value)
              && (forall k :: 0 <= k < |leads| ==> (leads[k] in r <==> leads[k].stage == stage.value))
              && multiset(r) <= multiset(leads)
  {
    if Truthy(stage) then Filter(leads, l => HasStage(stage.value, l)) else leads
  }

  /** GET without an id: every lead, or only those of `?stage=` when it is
      given, most recently updated first. A stage outside the enum makes the
      query throw, and nothing catches it. */
  function GetMany(s: Store, stage: Option<string>): (r: Reply<seq<LeadView>>)
    ensures r.ServerError? <==> Truthy(stage) && !IsStageKey(stage.value)
    ensures r.ServerError? ==> r == ServerError(Unhandled)
    ensures r.Ok? <==> !r.ServerError?
    ensures r.Ok? ==> multiset(LeadsIn(r.value)) == multiset(StageRows(s.leads, stage))
    ensures r.Ok? ==> forall i, j :: 0 <= i < j < |r.value| ==>
              r.value[i].lead.updatedAt >= r.value[j].lead.updatedAt
    ensures r.Ok? ==> forall k :: 0 <= k < |r.value| ==> r.value[k] == ViewOf(s, r.value[k].lead)
  {
    if Truthy(stage) && !IsStageKey(stage.value) then ServerError(Unhandled)
    else
      OrdersArePreorders();
      Ok(SortedViews(s, StageRows(s.leads, stage), UpdatedLater))
  }

  /** What GET answers: one lead, or a list of them */
  datatype Served = OneLead(view: LeadView) | LeadList(views: seq<LeadView>)

  /** GET: a truthy `?id=` serves that one lead; otherwise, `?id=` empty or
      absent, the (possibly stage-filtered) list */
  function Get(s: Store, id: Option<string>, stage: Option<string>): (r: Reply<Served>)
    ensures Truthy(id) ==> (r.Ok? <==> HasLead(s.leads, id.value))
    ensures Truthy(id) && r.Ok? ==>
              && r.value.OneLead?
              && r.value.view.lead in s.leads && r.value.view.lead.id == id.value
              && r.value.view == ViewOf(s, r.value.view.lead)
    ensures Truthy(id) && !r.Ok? ==> r == NotFound(LeadApi.LeadNotFound)
    ensures !Truthy(id) ==> (r.Ok? <==> !(Truthy(stage) && !IsStageKey(stage.value)))
    ensures !Truthy(id) && r.Ok? ==> r.value == LeadList(GetMany(s, stage).value)
    ensures !Truthy(id) && !r.Ok? ==> r == ServerError(Unhandled)
  {
    if Truthy(id) then
      match GetOne(s, id.value)
      case Ok(v) => Ok(OneLead(v))
      case _ => NotFound(LeadApi.LeadNotFound)
    else
      match GetMany(s, stage)
      case Ok(vs) => Ok(LeadList(vs))
      case _ => ServerError(Unhandled)
  }

  /** An empty `?id=` is falsy, so it lists exactly as no id at all */
  lemma EmptyIdLists(s: Store, stage: Option<string>)
    ensures Get(s, Some(""), stage) == Get(s, None, stage)
    ensures Get(s, Some(""), Some("")) == Get(s, None, None)
  {
  }

  /** Filtering by a stage returns that stage's leads and no others */
  lemma {:induction false} GetManyByStage(s: Store, stage: string)
    requires IsStageKey(stage)
    ensures GetMany(s, Some(stage)).Ok?
    ensures forall x :: x in LeadsIn(GetMany(s, Some(stage)).value) <==> x in s.leads && x.stage == stage
  {
    var vs := GetMany(s, Some(stage)).value;
    SameMembers(LeadsIn(vs), StageRows(s.leads, Some(stage)));
    StageRowsMembers(s.leads, stage);
  }

  /** A lead is among the selected rows exactly when it is a row of that stage */
  lemma StageRowsMembers(leads: seq<Lead>, stage: string)
    requires stage != ""
    ensures forall x :: x in StageRows(leads, Some(stage)) <==> x in leads && x.stage == stage
  {
    var rows := StageRows(leads, Some(stage));
    SubMultisetMembers(rows, leads);
    forall x
      ensures x in rows <==> x in leads && x.stage == stage
    {
      if x in rows {
        var j :| 0 <= j < |rows| && rows[j] == x;
      }
      if x in leads {
        var i :| 0 <= i < |leads| && leads[i] == x;
      }
    }
  }

  /** POST accepts the body when name, email and company are truthy */
  predicate CreateAccepted(b: LeadBody) {
    Truthy(b.name) && Truthy(b.email) && Truthy(b.company)
  }

  /** `body.stage ?? "NEW"` */
  function StageOrNew(b: LeadBody): (r: string)
    ensures b.stage.None? ==> r == New.Key()
    ensures b.stage.Some? ==> r == b.stage.value
  {
    if b.stage.Some? then b.stage.value else "NEW"
  }

  /** `x || ""` */
  function OrEmpty(f: Option<string>): (r: string)
    ensures Truthy(f) ==> r == f.value
    ensures !Truthy(f) ==> r == ""
  {
    if f.Some? then f.value else ""
  }

  /** POST. Fields are stored as sent, without trimming and without an email
      check; a stage outside the enum is refused by the database. */
  function Post(s: Store, body: Option<LeadBody>, newId: Id, now: Time): (r: Step<LeadView>)
    requires !HasLead(s.leads, newId)
    ensures body.Some? && !CreateAccepted(body.value) ==> r.reply == BadRequest(FieldsRequired)
    ensures body.None? || (CreateAccepted(body.value) && !IsStageKey(StageOrNew(body.value))) ==>
              r.reply == ServerError(CreateFailed)
    ensures r.reply.Created? <==>
              body.Some? && CreateAccepted(body.value) && IsStageKey(StageOrNew(body.value))
    ensures !r.reply.Created? ==> r.store == s
    ensures r.reply.Created? ==>
              var l := r.reply.value.lead;
              && r.store.leads == s.leads + [l]
              && r.store.conversations == s.conversations
              && l.id == newId && l.createdAt == now && l.updatedAt == now
              && l.name == body.value.name.value
              && l.email == body.value.email.value
              && l.company == body.value.company.value
              && l.stage == StageOrNew(body.value)
              && l.tags == (if body.value.tags.Some? then body.value.tags.value else [])
              && l.linkedIn == OrEmpty(body.value.linkedIn)
              && l.notes == Some(OrEmpty(body.value.notes))
              && (body.value.stage.None? ==> l.stage == "NEW")
              && (body.value.tags.None? ==> l.tags == [])
              && (!Truthy(body.value.linkedIn) ==> l.linkedIn == "")
              && (!Truthy(body.value.notes) ==> l.notes == Some(""))
              && l.nextFollowUp == None
    ensures r.reply.Created? && Valid(s) ==> r.reply.value.conversations == []
    ensures Valid(s) ==> Valid(r.store)
  {
    if body.None? then Step(s, ServerError(CreateFailed))
    else
      var b := body.value;
      if !CreateAccepted(b) then Step(s, BadRequest(FieldsRequired))
      else if !IsStageKey(StageOrNew(b)) then Step(s, ServerError(CreateFailed))
      else
        var l := Lead(
          id := newId,
          name := b.name.value,
          email := b.email.value,
          company := b.company.value,
          linkedIn := OrEmpty(b.linkedIn),
          notes := Some(OrEmpty(b.notes)),
          tags := if b.tags.Some? then b.tags.value else [],
          stage := StageOrNew(b),
          nextFollowUp := None,
          createdAt := now,
          updatedAt := now);
        var s' := Store(s.leads + [l], s.conversations);
        LeadApi.AppendLeadKeepsValid(s, l);
        NoConversationsForNewLead(s, newId);
        Step(s', Created(ViewOf(s', l)))
  }

  /** In a valid store no conversation can point at a key no lead has */
  lemma NoConversationsForNewLead(s: Store, id: Id)
    requires !HasLead(s.leads, id)
    ensures Valid(s) ==> ConversationsOf(s.conversations, id) == []
  {
    if Valid(s) {
      forall k | 0 <= k < |s.conversations|
        ensures !BelongsTo(id, s.conversations[k])
      {
        assert HasLead(s.leads, s.conversations[k].leadId);
        var j :| 0 <= j < |s.leads| && s.leads[j].id == s.conversations[k].leadId;
      }
      FilterOfNoneKept(s.conversations, c => BelongsTo(id, c));
    }
  }

  /** The row after `lead.update` with the seven fields this handler writes;
      absent fields are skipped and `nextFollowUp` is never written */
  function Patch(l: Lead, b: LeadBody, now: Time): (r: Lead)
    ensures r.id == l.id && r.createdAt == l.createdAt && r.updatedAt == now
    ensures r.nextFollowUp == l.nextFollowUp
    ensures r.name == (if b.name.Some? then b.name.value else l.name)
    ensures r.email == (if b.email.Some? then b.email.value else l.email)
    ensures r.company == (if b.company.Some? then b.company.value else l.company)
    ensures r.linkedIn == (if b.linkedIn.Some? then b.linkedIn.value else l.linkedIn)
    ensures r.notes == (if b.notes.Some? then b.notes else l.notes)
    ensures r.tags == (if b.tags.Some? then b.tags.value else l.tags)
    ensures r.stage == (if b.stage.Some? then b.stage.value else l.stage)
  {
    l.(name := if b.name.Some? then b.name.value else l.name,
       email := if b.email.Some? then b.email.value else l.email,
       company := if b.company.Some? then b.company.value else l.company,
       linkedIn := if b.linkedIn.Some? then b.linkedIn.value else l.linkedIn,
       notes := if b.notes.Some? then b.notes else l.notes,
       tags := if b.tags.Some? then b.tags.value else l.tags,
       stage := if b.stage.Some? then b.stage.value else l.stage,
       updatedAt := now)
  }

  /** PUT ?id= */
  function Put(s: Store, id: Option<string>, body: Option<LeadBody>, now: Time): (r: Step<LeadView>)
    ensures !Truthy(id) ==> r.reply == BadRequest(LeadApi.IdRequired)
    ensures Truthy(id) && body.Some? && !HasLead(s.leads, id.value) ==> r.reply == NotFound(LeadApi.LeadNotFound)
    ensures r.reply.Ok? <==>
              && Truthy(id) && body.Some? && HasLead(s.leads, id.value)
              && (body.value.stage.Some? ==> IsStageKey(body.value.stage.value))
    ensures !r.reply.Ok? ==> r.store == s
    ensures r.reply.Ok? ==>
              && r.store.conversations == s.conversations
              && |r.store.leads| == |s.leads|
              && (forall k :: 0 <= k < |s.leads| && s.leads[k].id != id.value ==> r.store.leads[k] == s.leads[k])
              && r.reply.value.lead.id == id.value
              && r.reply.value.lead in r.store.leads
    ensures r.reply.Ok? && Valid(s) ==>
              forall k :: 0 <= k < |s.leads| && s.leads[k].id == id.value ==>
                && r.store.leads[k] == Patch(s.leads[k], body.value, now)
                && r.reply.value.lead == r.store.leads[k]
    ensures Valid(s) ==> Valid(r.store)
  {
    if !Truthy(id) then Step(s, BadRequest(LeadApi.IdRequired))
    else if body.None? then Step(s, ServerError(LeadApi.UpdateFailed))
    else
      match FindLead(s.leads, id.value)
      case None => Step(s, NotFound(LeadApi.LeadNotFound))
      case Some(i) =>
        if body.value.stage.Some? && !IsStageKey(body.value.stage.value) then
          Step(s, ServerError(LeadApi.UpdateFailed))
        else
          var l := Patch(s.leads[i], body.value, now);
          var s' := Store(s.leads[i := l], s.conversations);
          LeadApi.ReplaceLeadKeepsValid(s, i, l);
          assert s'.leads[i] == l;
          Step(s', Ok(ViewOf(s', l)))
  }

  /** The follow-up date survives every PUT of this handler */
  lemma PutKeepsFollowUp(s: Store, id: Option<string>, body: Option<LeadBody>, now: Time, k: nat)
    requires Valid(s)
    requires k < |s.leads|
    ensures Put(s, id, body, now).store.leads[k].nextFollowUp == s.leads[k].nextFollowUp
  {
  }

  /** DELETE ?id= behaves exactly as the /api/leads handler */
  function Delete(s: Store, id: Option<string>): (r: Step<string>)
    ensures r.reply.Ok? <==> Truthy(id) && HasLead(s.leads, id.value)
    ensures Truthy(id) && !HasLead(s.leads, id.value) ==> r.reply == NotFound(LeadApi.LeadNotFound)
    ensures !r.reply.Ok? ==> r.store == s
    ensures r.reply.Ok? ==> r.store == DeleteCascade(s, id.value)
  {
    LeadApi.Delete(s, id)
  }
}

=== FILE: leads_hook.dfy ===
/** The client's lead list (`useLeads`): the list, a loading flag and an
    error message, and how each API call's outcome changes them. The calls
    themselves are parameters: each arrives as the outcome it settled with. */
module LeadsHook {
  import opened Crm
  import opened Sorting

  datatype State = State(leads: seq<LeadView>, loading: bool, error: Option<string>)

  const Initial := State([], false, None)

  /** How an awaited API call settled: with a value, or by throwing (with
      the message of an `Error`, or `None` for anything else thrown) */
  datatype Outcome<T> = Done(value: T) | Threw(message: Option<string>)

  /** What the hook's function does once the call settles */
  datatype Result<T> = Returned(value: T) | Rethrew(message: Option<string>)

  datatype Settled<T> = Settled(state: State, result: Result<T>)

  const FetchFailed := "Failed to fetch leads"
  const CreateFailed := "Failed to create lead"
  const UpdateFailed := "Failed to update lead"
  const DeleteFailed := "Failed to delete lead"

  /** `err instanceof Error ? err.message : fallback` */
  function ErrorText(m: Option<string>, fallback: string): (r: string)
    ensures m.Some? ==> r == m.value
    ensures m.None? ==> r == fallback
  {
    if m.Some? then m.value else fallback
  }

  /** `fetchLeads`: replace the list, or keep it and record the error; the
      error is not rethrown */
  function Fetch(st: State, o: Outcome<seq<LeadView>>): (r: State)
    ensures !r.loading
    ensures o.Done? ==> r.leads == o.value && r.error.None?
    ensures o.Threw? ==> r.leads == st.leads && r.error == Some(ErrorText(o.message, FetchFailed))
  {
    match o
    case Done(data) => State(data, false, None)
    case Threw(m) => State(st.leads, false, Some(ErrorText(m, FetchFailed)))
  }

  /** `createLead`: the created lead goes at the end */
  function Create(st: State, o: Outcome<LeadView>): (r: Settled<LeadView>)
    ensures !r.state.loading
    ensures o.Done? ==>
              && r.state.leads == st.leads + [o.value]
              && r.state.error.None? && r.result == Returned(o.value)
    ensures o.Threw? ==>
              && r.state.leads == st.leads
              && r.state.error == Some(ErrorText(o.message, CreateFailed))
              && r.result == Rethrew(o.message)
  {
    match o
    case Done(l) => Settled(State(st.leads + [l], false, None), Returned(l))
    case Threw(m) => Settled(State(st.leads, false, Some(ErrorText(m, CreateFailed))), Rethrew(m))
  }

  /** `prev.map(lead => lead.id === id ? updated : lead)` */
  function ReplaceById(leads: seq<LeadView>, id: Id, updated: LeadView): (r: seq<LeadView>)
    ensures |r| == |leads|
    ensures forall k :: 0 <= k < |leads| ==>
              r[k] == if leads[k].lead.id == id then updated else leads[k]
  {
    seq(|leads|, k requires 0 <= k < |leads| => if leads[k].lead.id == id then updated else leads[k])
  }

  /** `updateLead`: every entry with the id becomes the returned lead */
  function Update(st: State, id: Id, o: Outcome<LeadView>): (r: Settled<LeadView>)
    ensures !r.state.loading
    ensures o.Done? ==>
              && r.state.leads == ReplaceById(st.leads, id, o.value)
              && r.state.error.None? && r.result == Returned(o.value)
    ensures o.Threw? ==>
              && r.state.leads == st.leads
              && r.state.error == Some(ErrorText(o.message, UpdateFailed))
              && r.result == Rethrew(o.message)
  {
    match o
    case Done(l) => Settled(State(ReplaceById(st.leads, id, l), false, None), Returned(l))
    case Threw(m) => Settled(State(st.leads, false, Some(ErrorText(m, UpdateFailed))), Rethrew(m))
  }

  predicate NotId(id: Id, v: LeadView) {
    v.lead.id != id
  }

  /** `deleteLead`: drop every entry with the id, keep the rest in order */
  function Delete(st: State, id: Id, o: Outcome<()>): (r: Settled<()>)
    ensures !r.state.loading
    ensures o.Done? ==>
              && (forall k :: 0 <= k < |r.state.leads| ==> r.state.leads[k].lead.id != id)
              && (forall k :: 0 <= k < |st.leads| && st.leads[k].lead.id != id ==> st.leads[k] in r.state.leads)
              && IsSubsequence(r.state.leads, st.leads)
              && r.state.error.None? && r.result == Returned(())
    ensures o.Threw? ==>
              && r.state.leads == st.leads
              && r.state.error == Some(ErrorText(o.message, DeleteFailed))
              && r.result == Rethrew(o.message)
  {
    match o
    case Done(_) =>
      FilterIsSubsequence(st.leads, v => NotId(id, v));
      Settled(State(Filter(st.leads, v => NotId(id, v)), false, None), Returned(()))
    case Threw(m) => Settled(State(st.leads, false, Some(ErrorText(m, DeleteFailed))), Rethrew(m))
  }

  /** Deleting a freshly created lead, whose id was not yet listed, gives
      back the list as it was */
  lemma CreateThenDelete(st: State, l: LeadView)
    requires forall k :: 0 <= k < |st.leads| ==> st.leads[k].lead.id != l.lead.id
    ensures Delete(Create(st, Done(l)).state, l.lead.id, Done(())).state.leads == st.leads
  {
    var keep := v => NotId(l.lead.id, v);
    FilterAppend(st.leads, [l], keep);
    FilterOfAllKept(st.leads, keep);
    assert Filter([l], keep) == [];
  }

  /** Applying the same update twice changes nothing more */
  lemma UpdateIdempotent(st: State, id: Id, l: LeadView)
    ensures var once := Update(st, id, Done(l)).state;
            Update(once, id, Done(l)).state == once
  {
  }
}

=== FILE: manage_leads.dfy ===
/** The lead management page: the edit form filled from a lead, the
    comma-separated tag input, and the stage selector. */
module ManageLeads {
  import opened Crm
  import opened Text
  import LeadForm

  datatype EditForm = EditForm(
    name: string,
    email: string,
    company: string,
    linkedIn: string,
    notes: string,
    tags: seq<string>,
    stage: string)

  /** `handleEdit`: the form starts as a copy of the lead, with missing
      notes shown as "" */
  function EditFormOf(l: Lead): (f: EditForm)
    ensures f.name == l.name && f.email == l.email && f.company == l.company
    ensures f.linkedIn == l.linkedIn && f.tags == l.tags && f.stage == l.stage
    ensures l.notes.Some? ==> f.notes == l.notes.value
    ensures l.notes.None? ==> f.notes == ""
  {
    EditForm(l.name, l.email, l.company, l.linkedIn, if Truthy(l.notes) then l.notes.value else "", l.tags, l.stage)
  }

  /** The tag input's text: `tags.join(", ")` */
  function ShowTags(tags: seq<string>): string {
    Join(tags, ", ")
  }

  /** Editing the tag input: `value.split(",").map(t => t.trim())`; unlike
      the add form, empty pieces are kept */
  function ReadTags(text: string): (r: seq<string>)
    ensures |r| >= 1
    ensures forall k :: 0 <= k < |r| ==> IsTrimmed(r[k])
    ensures |r| == |Split(text, ',')|
    ensures forall k :: 0 <= k < |r| ==> r[k] == Trim(Split(text, ',')[k])
  {
    LeadForm.TrimAll(Split(text, ','))
  }

  /** An emptied tag input yields one empty tag, not an empty list */
  lemma EmptyInputGivesEmptyTag()
    ensures ReadTags("") == [""]
    ensures ReadTags(ShowTags([])) == [""]
  {
    assert Split("", ',') == [""];
  }

  /** The pieces `split(",")` sees in a list joined with ", " */
  function Spaced(tags: seq<string>): (r: seq<string>)
    requires |tags| >= 1
    ensures |r| == |tags| && r[0] == tags[0]
    ensures forall k :: 1 <= k < |r| ==> r[k] == " " + tags[k]
  {
    [tags[0]] + seq(|tags| - 1, k requires 0 <= k < |tags| - 1 => " " + tags[k + 1])
  }

  lemma {:induction false} JoinSpaced(tags: seq<string>)
    requires |tags| >= 1
    ensures Join(tags, ", ") == Join(Spaced(tags), ",")
    decreases |tags|
  {
    if |tags| > 1 {
      JoinSpaced(tags[1..]);
      var sp := Spaced(tags);
      var rest := Spaced(tags[1..]);
      var shifted := [" " + rest[0]] + rest[1..];
      assert sp[1..] == shifted by {
        forall i | 0 <= i < |shifted|
          ensures sp[1..][i] == shifted[i]
        {
          assert sp[1..][i] == " " + tags[i + 1];
        }
      }
      JoinFirst(rest, " ");
      var tail := Join(rest, ",");
      calc {
        Join(sp, ",");
        sp[0] + "," + Join(sp[1..], ",");
        tags[0] + "," + (" " + tail);
        tags[0] + ", " + tail;
        tags[0] + ", " + Join(tags[1..], ", ");
      }
    }
  }

  /** Putting text in front of the first piece puts it in front of the join */
  lemma {:induction false} JoinFirst(parts: seq<string>, pre: string)
    requires |parts| >= 1
    ensures Join([pre + parts[0]] + parts[1..], ",") == pre + Join(parts, ",")
  {
    var ps := [pre + parts[0]] + parts[1..];
    assert |ps| == |parts| && ps[0] == pre + parts[0];
    if |parts| > 1 {
      var tail := Join(parts[1..], ",");
      assert ps[1..] == parts[1..];
      calc {
        Join(ps, ",");
        ps[0] + "," + Join(ps[1..], ",");
        (pre + parts[0]) + "," + tail;
        pre + (parts[0] + "," + tail);
      }
    }
  }

  /** Showing a non-empty list of trimmed, comma-free tags and reading the
      text back gives the same tags */
  lemma ShowThenRead(tags: seq<string>)
    requires |tags| >= 1
    requires forall k :: 0 <= k < |tags| ==> IsTrimmed(tags[k]) && ',' !in tags[k]
    ensures ReadTags(ShowTags(tags)) == tags
  {
    var sp := Spaced(tags);
    JoinSpaced(tags);
    SpacedKeepsOut(tags);
    SplitJoin(sp, ',');
    TrimSpaced(tags);
    var r := ReadTags(ShowTags(tags));
    assert Split(ShowTags(tags), ',') == sp;
    assert forall k :: 0 <= k < |r| ==> r[k] == Trim(sp[k]);
  }

  /** The space put in front of a comma-free tag adds no comma */
  lemma SpacedKeepsOut(tags: seq<string>)
    requires |tags| >= 1
    requires forall k :: 0 <= k < |tags| ==> ',' !in tags[k]
    ensures NoneContains(Spaced(tags), ',')
  {
    var sp := Spaced(tags);
    forall k | 0 <= k < |sp|
      ensures ',' !in sp[k]
    {
      if k > 0 {
        assert sp[k] == [' '] + tags[k];
      }
    }
  }

  /** `trim` removes the space put in front of a trimmed tag */
  lemma TrimSpaced(tags: seq<string>)
    requires |tags| >= 1
    requires forall k :: 0 <= k < |tags| ==> IsTrimmed(tags[k])
    ensures forall k :: 0 <= k < |tags| ==> Trim(Spaced(tags)[k]) == tags[k]
  {
    var sp := Spaced(tags);
    forall k | 0 <= k < |tags|
      ensures Trim(sp[k]) == tags[k]
    {
      if k > 0 {
        assert sp[k] == [' '] + tags[k];
        TrimSkipsLeadingSpace(' ', tags[k]);
      }
    }
  }

  /** The options of the stage selector */
  const StageOptions: seq<string> := ["NEW", "CONTACTED", "CONVERTED", "LOST"]

  lemma StageOptionsAreTheEnum()
    ensures forall o :: o in StageOptions <==> IsStageKey(o)
    ensures forall i :: 0 <= i < |Stages| ==> StageOptions[i] == Stages[i].Key()
  {
  }
}

=== FILE: pipeline.dfy ===
/** The pipeline page: the fetched leads split into one bucket per stage,
    in the fixed order New, Contacted, Converted, Lost, each with a count. */
module Pipeline {
  import opened Crm
  import opened Sorting

  datatype Bucket = Bucket(stage: Stage, title: string, leads: seq<LeadView>, count: nat)

  function Label(s: Stage): string {
    match s
    case New => "New"
    case Contacted => "Contacted"
    case Converted => "Converted"
    case Lost => "Lost"
  }

  predicate HasStageKey(key: string, v: LeadView) {
    v.lead.stage == key
  }

  /** `leads.filter(l => l.stage === stage.key)` */
  function StageLeads(leads: seq<LeadView>, key: string): (r: seq<LeadView>)
    ensures forall k :: 0 <= k < |r| ==> r[k].lead.stage == key
    ensures forall k :: 0 <= k < |leads| ==> (leads[k] in r <==> leads[k].lead.stage == key)
  {
    Filter(leads, v => HasStageKey(key, v))
  }

  function Buckets(leads: seq<LeadView>): (r: seq<Bucket>)
    ensures |r| == |Stages|
    ensures forall i :: 0 <= i < |r| ==>
              && r[i].stage == Stages[i]
              && r[i].leads == StageLeads(leads, Stages[i].Key())
              && r[i].count == |r[i].leads|
  {
    seq(|Stages|, i requires 0 <= i < |Stages| =>
      var ls := StageLeads(leads, Stages[i].Key());
      Bucket(Stages[i], Label(Stages[i]), ls, |ls|))
  }

  lemma StageKeysInOrder()
    ensures forall i :: 0 <= i < |Stages| ==> Stages[i].Key() == StageKeys[i]
  {
  }

  /** The buckets come in the order New, Contacted, Converted, Lost */
  lemma BucketOrder(leads: seq<LeadView>)
    ensures Buckets(leads)[0].stage == New && Buckets(leads)[1].stage == Contacted
    ensures Buckets(leads)[2].stage == Converted && Buckets(leads)[3].stage == Lost
  {
    var bs := Buckets(leads);
    assert bs[0].stage == Stages[0] && bs[1].stage == Stages[1];
    assert bs[2].stage == Stages[2] && bs[3].stage == Stages[3];
  }

  /** A lead lands in a bucket exactly when its stage is one of the four
      keys */
  lemma BucketsByStage(leads: seq<LeadView>, k: nat)
    requires k < |leads|
    ensures IsStageKey(leads[k].lead.stage) <==>
              exists i :: 0 <= i < |Stages| && leads[k] in Buckets(leads)[i].leads
  {
    var st := leads[k].lead.stage;
    if IsStageKey(st) {
      var i :| 0 <= i < |StageKeys| && StageKeys[i] == st;
      InBucket(leads, k, i);
    }
    if exists i :: 0 <= i < |Stages| && leads[k] in Buckets(leads)[i].leads {
      var i :| 0 <= i < |Stages| && leads[k] in Buckets(leads)[i].leads;
      InBucket(leads, k, i);
      assert st == StageKeys[i];
    }
  }

  /** Bucket `i` holds a lead exactly when the lead's stage is key `i` */
  lemma InBucket(leads: seq<LeadView>, k: nat, i: nat)
    requires k < |leads| && i < |Stages|
    ensures leads[k] in Buckets(leads)[i].leads <==> leads[k].lead.stage == StageKeys[i]
  {
    StageKeysInOrder();
    assert Buckets(leads)[i].leads == StageLeads(leads, Stages[i].Key());
  }

  function TotalCount(bs: seq<Bucket>): nat {
    if |bs| == 0 then 0 else bs[0].count + TotalCount(bs[1..])
  }

  predicate ValidStage(v: LeadView) {
    IsStageKey(v.lead.stage)
  }

  function KeyCount(leads: seq<LeadView>, key: string): nat {
    |StageLeads(leads, key)|
  }

  /** Each lead is counted once if its stage is a key and not at all
      otherwise */
  lemma {:induction false} CountsAddUp(leads: seq<LeadView>)
    ensures KeyCount(leads, "NEW") + KeyCount(leads, "CONTACTED") + KeyCount(leads, "CONVERTED")
            + KeyCount(leads, "LOST") == |Filter(leads, ValidStage)|
    decreases |leads|
  {
    if |leads| > 0 {
      var t := leads[1..];
      CountsAddUp(t);
      FilterLengthStep(leads, v => HasStageKey("NEW", v));
      FilterLengthStep(leads, v => HasStageKey("CONTACTED", v));
      FilterLengthStep(leads, v => HasStageKey("CONVERTED", v));
      FilterLengthStep(leads, v => HasStageKey("LOST", v));
      FilterLengthStep(leads, ValidStage);
      var st := leads[0].lead.stage;
      assert IsStageKey(st) <==> st == "NEW" || st == "CONTACTED" || st == "CONVERTED" || st == "LOST";
    }
  }

  /** The counts add up to at most the number of leads, and to exactly that
      number when every lead has one of the four stages */
  lemma CountsBoundedByLeads(leads: seq<LeadView>)
    ensures TotalCount(Buckets(leads)) <= |leads|
    ensures TotalCount(Buckets(leads)) == |leads| <==> forall k :: 0 <= k < |leads| ==> ValidStage(leads[k])
  {
    var bs := Buckets(leads);
    assert TotalCount(bs[4..]) == 0;
    assert TotalCount(bs[3..]) == bs[3].count + TotalCount(bs[4..]);
    assert TotalCount(bs[2..]) == bs[2].count + TotalCount(bs[3..]);
    assert TotalCount(bs[1..]) == bs[1].count + TotalCount(bs[2..]);
    assert TotalCount(bs) == bs[0].count + TotalCount(bs[1..]);
    assert bs[0].count == KeyCount(leads, "NEW");
    assert bs[1].count == KeyCount(leads, "CONTACTED");
    assert bs[2].count == KeyCount(leads, "CONVERTED");
    assert bs[3].count == KeyCount(leads, "LOST");
    CountsAddUp(leads);
    FilterKeepsAllIff(leads, ValidStage);
  }
}

=== FILE: reminders.dfy ===
/** The notification bell: every conversation reminder falling within the
    next thirty days, across all leads, earliest first. */
module Reminders {
  import opened Crm
  import opened Sorting

  /** How far ahead the bell looks */
  const Window: int := 30 * DayMs

  /** One entry of the reminder list */
  datatype Reminder = Reminder(leadId: Id, leadName: string, at: Time, kind: string, content: string)

  /** A conversation whose reminder lies between now and thirty days on,
      both ends included */
  predicate InWindow(now: Time, c: Conversation) {
    c.reminder.Some? && now <= c.reminder.value <= now + Window
  }

  function ReminderFrom(l: Lead, c: Conversation): (r: Reminder)
    requires c.reminder.Some?
    ensures r.leadId == l.id && r.leadName == l.name
    ensures r.at == c.reminder.value && r.kind == c.kind && r.content == c.content
  {
    Reminder(l.id, l.name, c.reminder.value, c.kind, c.content)
  }

  /** The entries one lead contributes, in conversation order */
  function LeadReminders(v: LeadView, now: Time): (r: seq<Reminder>)
    ensures |r| == |Filter(v.conversations, c => InWindow(now, c))|
    ensures forall k :: 0 <= k < |r| ==> now <= r[k].at <= now + Window
    ensures forall j :: 0 <= j < |v.conversations| && InWindow(now, v.conversations[j]) ==>
              ReminderFrom(v.lead, v.conversations[j]) in r
  {
    var kept := Filter(v.conversations, c => InWindow(now, c));
    var r := seq(|kept|, k requires 0 <= k < |kept| => ReminderFrom(v.lead, kept[k]));
    forall j | 0 <= j < |v.conversations| && InWindow(now, v.conversations[j])
      ensures ReminderFrom(v.lead, v.conversations[j]) in r
    {
      var m :| 0 <= m < |kept| && kept[m] == v.conversations[j];
      assert r[m] == ReminderFrom(v.lead, v.conversations[j]);
    }
    r
  }

  /** Every entry of one lead comes from one of its in-window conversations */
  lemma LeadRemindersSound(v: LeadView, now: Time, k: nat)
    requires k < |LeadReminders(v, now)|
    ensures exists j :: 0 <= j < |v.conversations| && InWindow(now, v.conversations[j])
                        && LeadReminders(v, now)[k] == ReminderFrom(v.lead, v.conversations[j])
  {
    var kept := Filter(v.conversations, c => InWindow(now, c));
    assert LeadReminders(v, now)[k] == ReminderFrom(v.lead, kept[k]);
    SubMultisetMembers(kept, v.conversations);
    var j :| 0 <= j < |v.conversations| && v.conversations[j] == kept[k];
  }

  /** Number of in-window conversations over all leads */
  function InWindowCount(leads: seq<LeadView>, now: Time): nat {
    if |leads| == 0 then 0
    else |Filter(leads[0].conversations, c => InWindow(now, c))| + InWindowCount(leads[1..], now)
  }

  /** The walk over leads and their conversations, before sorting */
  function Collect(leads: seq<LeadView>, now: Time): (r: seq<Reminder>)
    ensures |r| == InWindowCount(leads, now)
    ensures forall k :: 0 <= k < |r| ==> now <= r[k].at <= now + Window
    decreases |leads|
  {
    if |leads| == 0 then [] else LeadReminders(leads[0], now) + Collect(leads[1..], now)
  }

  /** A reminder conversation `j` of lead `i` that lies in the window */
  predicate Source(leads: seq<LeadView>, now: Time, i: int, j: int) {
    && 0 <= i < |leads| && 0 <= j < |leads[i].conversations|
    && InWindow(now, leads[i].conversations[j])
  }

  /** Every collected entry comes from an in-window conversation and
      carries its lead's id and name and the conversation's type and content */
  lemma {:induction false} CollectSound(leads: seq<LeadView>, now: Time, k: nat)
    requires k < |Collect(leads, now)|
    ensures exists i, j :: Source(leads, now, i, j)
              && Collect(leads, now)[k] == ReminderFrom(leads[i].lead, leads[i].conversations[j])
    decreases |leads|
  {
    var head := LeadReminders(leads[0], now);
    var r := Collect(leads, now);
    if k < |head| {
      var v := leads[0];
      LeadRemindersSound(v, now, k);
      var j :| 0 <= j < |v.conversations| && InWindow(now, v.conversations[j])
               && head[k] == ReminderFrom(v.lead, v.conversations[j]);
      assert r[k] == head[k];
      assert Source(leads, now, 0, j);
    } else {
      CollectSound(leads[1..], now, k - |head|);
      var i, j :| Source(leads[1..], now, i, j)
                  && Collect(leads[1..], now)[k - |head|] == ReminderFrom(leads[1..][i].lead, leads[1..][i].conversations[j]);
      assert leads[1..][i] == leads[i + 1];
      assert Source(leads, now, i + 1, j);
    }
  }

  /** Every in-window conversation of every lead yields an entry */
  lemma {:induction false} CollectComplete(leads: seq<LeadView>, now: Time, i: nat, j: nat)
    requires Source(leads, now, i, j)
    ensures ReminderFrom(leads[i].lead, leads[i].conversations[j]) in Collect(leads, now)
    decreases |leads|
  {
    if i > 0 {
      assert leads[i] == leads[1..][i - 1];
      CollectComplete(leads[1..], now, i - 1, j);
    }
  }

  predicate EarlierReminder(a: Reminder, b: Reminder) {
    a.at <= b.at
  }

  lemma EarlierIsPreorder()
    ensures TotalPreorder(EarlierReminder)
  {
  }

  /** The bell's list: the collected reminders, earliest first */
  function Upcoming(leads: seq<LeadView>, now: Time): (r: seq<Reminder>)
    ensures multiset(r) == multiset(Collect(leads, now))
    ensures forall i, j :: 0 <= i < j < |r| ==> r[i].at <= r[j].at
  {
    EarlierIsPreorder();
    Sort(Collect(leads, now), EarlierReminder)
  }

  /** Sorting keeps the window bounds and loses no reminder */
  lemma UpcomingContents(leads: seq<LeadView>, now: Time)
    ensures var r := Upcoming(leads, now);
            && |r| == InWindowCount(leads, now)
            && (forall k :: 0 <= k < |r| ==> now <= r[k].at <= now + Window)
            && (forall i, j :: Source(leads, now, i, j) ==>
                  ReminderFrom(leads[i].lead, leads[i].conversations[j]) in r)
  {
    var r := Upcoming(leads, now);
    var c := Collect(leads, now);
    assert |r| == |multiset(r)| == |multiset(c)| == |c|;
    forall k | 0 <= k < |r|
      ensures now <= r[k].at <= now + Window
    {
      assert r[k] in multiset(c);
    }
    forall i, j | Source(leads, now, i, j)
      ensures ReminderFrom(leads[i].lead, leads[i].conversations[j]) in r
    {
      CollectComplete(leads, now, i, j);
      assert ReminderFrom(leads[i].lead, leads[i].conversations[j]) in multiset(c);
    }
  }

  /** Every entry of the list comes from an in-window conversation */
  lemma UpcomingSound(leads: seq<LeadView>, now: Time, k: nat)
    requires k < |Upcoming(leads, now)|
    ensures exists i, j :: Source(leads, now, i, j)
              && Upcoming(leads, now)[k] == ReminderFrom(leads[i].lead, leads[i].conversations[j])
  {
    var r := Upcoming(leads, now);
    var c := Collect(leads, now);
    assert r[k] in multiset(c);
    var m :| 0 <= m < |c| && c[m] == r[k];
    CollectSound(leads, now, m);
  }

  /** `hasUnread`: the red dot shows exactly when the list is non-empty */
  function HasUnread(reminders: seq<Reminder>): (b: bool)
    ensures b <==> |reminders| > 0
  {
    |reminders| > 0
  }

  /** The red dot shows exactly when some lead has a conversation whose
      reminder falls within the window */
  lemma UnreadIffSomeInWindow(leads: seq<LeadView>, now: Time)
    ensures HasUnread(Upcoming(leads, now)) <==> exists i, j :: Source(leads, now, i, j)
  {
    UpcomingContents(leads, now);
    if |Collect(leads, now)| > 0 {
      CollectSound(leads, now, 0);
    }
  }
}

=== FILE: search.dfy ===
/** GET /api/leads/search?q= : the quick-find box. Leads whose name or
    email starts with the query, ignoring case, ordered by name, then email,
    then newest first, capped at three; each carries its five most recent
    conversations. */
module Search {
  import opened Crm
  import opened Text
  import opened Sorting
  import opened Db

  const QueryRequired := "Search query is required"

  /** Most leads one search returns */
  const MaxLeads: nat := 3

  /** Most conversations attached to each returned lead */
  const MaxConversations: nat := 5

  /** `startsWith` with `mode: "insensitive"` on name or on email */
  predicate Matches(q: string, l: Lead) {
    StartsWith(Lower(l.name), Lower(q)) || StartsWith(Lower(l.email), Lower(q))
  }

  /** `orderBy: [{ name: "asc" }, { email: "asc" }, { createdAt: "desc" }]` */
  predicate SearchBefore(a: Lead, b: Lead) {
    || Less(a.name, b.name)
    || (a.name == b.name && (Less(a.email, b.email) || (a.email == b.email && a.createdAt >= b.createdAt)))
  }

  lemma SearchOrderIsPreorder()
    ensures TotalPreorder(SearchBefore)
  {
    forall a: Lead, b: Lead
      ensures SearchBefore(a, b) || SearchBefore(b, a)
    {
      LessTrichotomy(a.name, b.name);
      LessTrichotomy(a.email, b.email);
    }
    forall a: Lead, b: Lead, c: Lead | SearchBefore(a, b) && SearchBefore(b, c)
      ensures SearchBefore(a, c)
    {
      if Less(a.name, b.name) && Less(b.name, c.name) {
        LessTransitive(a.name, b.name, c.name);
      }
      if a.name == b.name == c.name && Less(a.email, b.email) && Less(b.email, c.email) {
        LessTransitive(a.email, b.email, c.email);
      }
    }
  }

  /** The `n` newest of some conversations, newest first */
  function Newest(cs: seq<Conversation>, n: nat): (r: seq<Conversation>)
    ensures |r| <= n
    ensures multiset(r) <= multiset(cs)
    ensures forall i, j :: 0 <= i < j < |r| ==> r[i].timestamp >= r[j].timestamp
    ensures forall k :: 0 <= k < |cs| ==>
              cs[k] in r || forall i :: 0 <= i < |r| ==> r[i].timestamp >= cs[k].timestamp
  {
    OrdersArePreorders();
    Top(cs, NewerConversation, n)
  }

  /** The attached conversations: the lead's own, newest first, at most
      five, and none left out that is newer than one kept */
  function RecentOf(s: Store, l: Lead): (r: seq<Conversation>)
    ensures |r| <= MaxConversations
    ensures forall k :: 0 <= k < |r| ==> r[k].leadId == l.id && r[k] in s.conversations
    ensures forall i, j :: 0 <= i < j < |r| ==> r[i].timestamp >= r[j].timestamp
    ensures var own := ConversationsOf(s.conversations, l.id);
            forall k :: 0 <= k < |own| ==>
              own[k] in r || forall i :: 0 <= i < |r| ==> r[i].timestamp >= own[k].timestamp
  {
    var own := ConversationsOf(s.conversations, l.id);
    var r := Newest(own, MaxConversations);
    SubMultisetMembers(r, own);
    assert multiset(r) <= multiset(s.conversations);
    SubMultisetMembers(r, s.conversations);
    r
  }

  /** The `where` clause of the search as a test on one lead */
  function Matcher(q: string): Lead -> bool {
    l => Matches(q, l)
  }

  /** The matching leads, in table order */
  function Found(leads: seq<Lead>, q: string): (r: seq<Lead>)
    ensures forall k :: 0 <= k < |r| ==> Matches(q, r[k])
    ensures forall k :: 0 <= k < |leads| ==> (leads[k] in r <==> Matches(q, leads[k]))
    ensures multiset(r) <= multiset(leads)
  {
    Filter(leads, Matcher(q))
  }

  /** The leads a search returns: the first three matches in search order */
  function TopMatches(leads: seq<Lead>, q: string): (r: seq<Lead>)
    ensures |r| <= MaxLeads
    ensures forall k :: 0 <= k < |r| ==> Matches(q, r[k]) && r[k] in leads
    ensures forall i, j :: 0 <= i < j < |r| ==> SearchBefore(r[i], r[j])
    ensures forall k :: 0 <= k < |leads| && Matches(q, leads[k]) ==>
              leads[k] in r || forall i :: 0 <= i < |r| ==> SearchBefore(r[i], leads[k])
    ensures |r| < MaxLeads ==> forall k :: 0 <= k < |leads| && Matches(q, leads[k]) ==> leads[k] in r
  {
    SearchOrderIsPreorder();
    var r := Top(Found(leads, q), SearchBefore, MaxLeads);
    TopMatchesFacts(leads, q, r);
    r
  }

  lemma TopMatchesFacts(leads: seq<Lead>, q: string, r: seq<Lead>)
    requires TotalPreorder(SearchBefore)
    requires r == Top(Found(leads, q), SearchBefore, MaxLeads)
    ensures forall k :: 0 <= k < |r| ==> Matches(q, r[k]) && r[k] in leads
    ensures forall i, j :: 0 <= i < j < |r| ==> SearchBefore(r[i], r[j])
    ensures forall k :: 0 <= k < |leads| && Matches(q, leads[k]) ==>
              leads[k] in r || forall i :: 0 <= i < |r| ==> SearchBefore(r[i], leads[k])
    ensures |r| < MaxLeads ==> forall k :: 0 <= k < |leads| && Matches(q, leads[k]) ==> leads[k] in r
  {
    var keep := Matcher(q);
    TopOfFilter(leads, keep, SearchBefore, MaxLeads);
    forall k | 0 <= k < |r|
      ensures Matches(q, r[k]) && r[k] in leads
    {
      assert keep(r[k]);
    }
    InSearchOrder(r);
    forall k | 0 <= k < |leads| && Matches(q, leads[k])
      ensures leads[k] in r || forall i :: 0 <= i < |r| ==> SearchBefore(r[i], leads[k])
      ensures |r| < MaxLeads ==> leads[k] in r
    {
      assert keep(leads[k]);
    }
  }

  /** A list sorted by the search order has each lead before every later one */
  lemma InSearchOrder(r: seq<Lead>)
    requires SortedBy(r, SearchBefore)
    ensures forall i, j :: 0 <= i < j < |r| ==> SearchBefore(r[i], r[j])
  {
    forall i, j | 0 <= i < j < |r|
      ensures SearchBefore(r[i], r[j])
    {
      var le := SearchBefore;
      assert le(r[i], r[j]);
    }
  }

  function Search(s: Store, q: Option<string>): (r: Reply<seq<LeadView>>)
    ensures !Truthy(q) ==> r == BadRequest(QueryRequired)
    ensures r.Ok? <==> Truthy(q)
    ensures r.Ok? ==> LeadsIn(r.value) == TopMatches(s.leads, q.value)
    ensures r.Ok? ==> forall k :: 0 <= k < |r.value| ==> r.value[k].conversations == RecentOf(s, r.value[k].lead)
  {
    if !Truthy(q) then BadRequest(QueryRequired)
    else
      var top := TopMatches(s.leads, q.value);
      Ok(seq(|top|, k requires 0 <= k < |top| => LeadView(top[k], RecentOf(s, top[k]))))
  }

  /** Search ignores the case of the query */
  lemma CaseOfQueryIgnored(s: Store, q: string)
    requires q != ""
    ensures Search(s, Some(Lower(q))) == Search(s, Some(q))
  {
    LowerIdempotent(q);
    FilterAgreeing(s.leads, Matcher(Lower(q)), Matcher(q));
  }
}

=== FILE: sorting.dfy ===
/** Ordering of result lists: the `orderBy` of a database query and
    JavaScript's `Array.prototype.sort`, both as a stable insertion sort
    under a caller-chosen total preorder. */
module Sorting {

  /** `le` orders every pair and is transitive */
  ghost predicate TotalPreorder<T(!new)>(le: (T, T) -> bool) {
    && (forall a, b :: le(a, b) || le(b, a))
    && (forall a, b, c :: le(a, b) && le(b, c) ==> le(a, c))
  }

  predicate SortedBy<T>(s: seq<T>, le: (T, T) -> bool) {
    forall i, j :: 0 <= i < j < |s| ==> le(s[i], s[j])
  }

  /** Places `x` in front of the first element it does not come after */
  function Insert<T>(x: T, s: seq<T>, le: (T, T) -> bool): (r: seq<T>)
    ensures |r| == |s| + 1
    ensures multiset(r) == multiset(s) + multiset{x}
  {
    if |s| == 0 then [x]
    else if le(x, s[0]) then [x] + s
    else
      assert s == [s[0]] + s[1..];
      [s[0]] + Insert(x, s[1..], le)
  }

  lemma {:induction false} InsertSorted<T(!new)>(x: T, s: seq<T>, le: (T, T) -> bool)
    requires TotalPreorder(le)
    requires SortedBy(s, le)
    ensures SortedBy(Insert(x, s, le), le)
    decreases |s|
  {
    if |s| > 0 && !le(x, s[0]) {
      InsertSorted(x, s[1..], le);
      var r := Insert(x, s[1..], le);
      assert le(s[0], x);
      forall k | 0 <= k < |r|
        ensures le(s[0], r[k])
      {
        assert r[k] in multiset(r);
        assert r[k] == x || r[k] in multiset(s[1..]);
        if r[k] != x {
          var m :| 0 <= m < |s[1..]| && s[1..][m] == r[k];
          assert s[1 + m] == r[k];
        }
      }
    }
  }

  /** The list reordered by `le`; ties keep their original order */
  function Sort<T(!new)>(s: seq<T>, le: (T, T) -> bool): (r: seq<T>)
    requires TotalPreorder(le)
    ensures |r| == |s|
    ensures multiset(r) == multiset(s)
    ensures SortedBy(r, le)
    decreases |s|
  {
    if |s| == 0 then []
    else
      var rest := Sort(s[1..], le);
      InsertSorted(s[0], rest, le);
      assert s == [s[0]] + s[1..];
      Insert(s[0], rest, le)
  }

  /** The first `n` elements, or all of them when there are fewer
      (`take: n`, `slice(0, n)`) */
  function Take<T>(s: seq<T>, n: nat): (r: seq<T>)
    ensures |r| == if |s| < n then |s| else n
    ensures r == s[..|r|]
  {
    if |s| <= n then s else s[..n]
  }

  /** Same elements, same order, except those `keep` rejects */
  function Filter<T>(s: seq<T>, keep: T -> bool): (r: seq<T>)
    ensures |r| <= |s|
    ensures forall k :: 0 <= k < |r| ==> keep(r[k])
    ensures forall k :: 0 <= k < |s| ==> (s[k] in r <==> keep(s[k]))
    ensures multiset(r) <= multiset(s)
  {
    if |s| == 0 then []
    else
      assert s == [s[0]] + s[1..];
      (if keep(s[0]) then [s[0]] else []) + Filter(s[1..], keep)
  }

  /** Filtering keeps every copy of an accepted element and no copy of a
      rejected one */
  lemma {:induction false} FilterCounts<T>(s: seq<T>, keep: T -> bool)
    ensures forall x :: multiset(Filter(s, keep))[x] == if keep(x) then multiset(s)[x] else 0
    decreases |s|
  {
    if |s| > 0 {
      FilterCounts(s[1..], keep);
      var head := if keep(s[0]) then [s[0]] else [];
      assert s == [s[0]] + s[1..];
      assert Filter(s, keep) == head + Filter(s[1..], keep);
    }
  }

  /** `r` is `s` with some elements left out and the rest in order */
  predicate IsSubsequence<T(==)>(r: seq<T>, s: seq<T>)
    decreases |s|
  {
    if |r| == 0 then true
    else if |s| == 0 then false
    else if r[0] == s[0] then IsSubsequence(r[1..], s[1..])
    else IsSubsequence(r, s[1..])
  }

  /** Filtering keeps the order of what it keeps */
  lemma {:induction false} FilterIsSubsequence<T>(s: seq<T>, keep: T -> bool)
    ensures IsSubsequence(Filter(s, keep), s)
    decreases |s|
  {
    if |s| > 0 {
      FilterIsSubsequence(s[1..], keep);
      var rest := Filter(s[1..], keep);
      if keep(s[0]) {
        assert Filter(s, keep) == [s[0]] + rest;
        assert ([s[0]] + rest)[1..] == rest;
      } else {
        assert Filter(s, keep) == rest;
        SubsequenceSkip(rest, s);
      }
    }
  }

  /** A subsequence of the tail is a subsequence of the whole list */
  lemma {:induction false} SubsequenceSkip<T>(r: seq<T>, s: seq<T>)
    requires |s| > 0
    requires IsSubsequence(r, s[1..])
    ensures IsSubsequence(r, s)
    decreases |s|, 0
  {
    if |r| > 0 && r[0] == s[0] {
      SubsequenceDropHead(r, s[1..]);
    }
  }

  /** Leaving out the first element of a subsequence keeps a subsequence */
  lemma {:induction false} SubsequenceDropHead<T>(r: seq<T>, t: seq<T>)
    requires |r| > 0
    requires IsSubsequence(r, t)
    ensures IsSubsequence(r[1..], t)
    decreases |t|, 1
  {
    if r[0] == t[0] {
      if |t| > 0 {
        SubsequenceSkip(r[1..], t);
      }
    } else {
      SubsequenceDropHead(r, t[1..]);
      SubsequenceSkip(r[1..], t);
    }
  }

  /** A filter that rejects nothing returns its input unchanged */
  lemma {:induction false} FilterOfAllKept<T>(s: seq<T>, keep: T -> bool)
    requires forall k :: 0 <= k < |s| ==> keep(s[k])
    ensures Filter(s, keep) == s
    decreases |s|
  {
    if |s| > 0 {
      FilterCons(s, keep);
      FilterOfAllKept(s[1..], keep);
      assert s == [s[0]] + s[1..];
    }
  }

  /** One step of `Filter`: the head is kept or dropped, then the rest */
  lemma FilterCons<T>(s: seq<T>, keep: T -> bool)
    requires |s| > 0
    ensures Filter(s, keep) == (if keep(s[0]) then [s[0]] else []) + Filter(s[1..], keep)
  {
  }

  /** Filtering out everything leaves nothing */
  lemma {:induction false} FilterOfNoneKept<T>(s: seq<T>, keep: T -> bool)
    requires forall k :: 0 <= k < |s| ==> !keep(s[k])
    ensures Filter(s, keep) == []
    decreases |s|
  {
    if |s| > 0 {
      FilterOfNoneKept(s[1..], keep);
    }
  }

  /** Filtering a concatenation filters each part */
  lemma {:induction false} FilterAppend<T>(a: seq<T>, b: seq<T>, keep: T -> bool)
    ensures Filter(a + b, keep) == Filter(a, keep) + Filter(b, keep)
    decreases |a|
  {
    if |a| > 0 {
      FilterAppend(a[1..], b, keep);
      var head := if keep(a[0]) then [a[0]] else [];
      assert (a + b)[0] == a[0];
      assert (a + b)[1..] == a[1..] + b;
      assert Filter(a + b, keep) == head + Filter(a[1..] + b, keep);
      assert Filter(a, keep) == head + Filter(a[1..], keep);
    } else {
      assert a + b == b;
    }
  }

  /** The first `n` elements in `le` order (`orderBy` with `take: n`) */
  function Top<T(!new)>(s: seq<T>, le: (T, T) -> bool, n: nat): (r: seq<T>)
    requires TotalPreorder(le)
    ensures |r| == if |s| < n then |s| else n
    ensures SortedBy(r, le)
    ensures multiset(r) <= multiset(s)
    ensures forall k :: 0 <= k < |s| ==> s[k] in r || forall i :: 0 <= i < |r| ==> le(r[i], s[k])
    ensures |r| < n ==> forall k :: 0 <= k < |s| ==> s[k] in r
  {
    TopFacts(s, le, n);
    Take(Sort(s, le), n)
  }

  /** What taking the first `n` of the sorted list keeps and leaves out */
  lemma TopFacts<T(!new)>(s: seq<T>, le: (T, T) -> bool, n: nat)
    requires TotalPreorder(le)
    ensures var top := Take(Sort(s, le), n);
            && SortedBy(top, le)
            && multiset(top) <= multiset(s)
            && (forall k :: 0 <= k < |s| ==> s[k] in top || forall i :: 0 <= i < |top| ==> le(top[i], s[k]))
            && (|top| < n ==> forall k :: 0 <= k < |s| ==> s[k] in top)
  {
    var sorted := Sort(s, le);
    var top := Take(sorted, n);
    TopOfSorted(s, le, n);
    TakeSubMultiset(sorted, n);
    if |top| < n {
      assert top == sorted;
      forall k | 0 <= k < |s|
        ensures s[k] in top
      {
        assert s[k] in multiset(s);
      }
    }
  }

  /** The first `n` in `le` order of the elements `keep` accepts, stated
      against the whole list */
  lemma TopOfFilter<T(!new)>(s: seq<T>, keep: T -> bool, le: (T, T) -> bool, n: nat)
    requires TotalPreorder(le)
    ensures var r := Top(Filter(s, keep), le, n);
            && (forall k :: 0 <= k < |r| ==> keep(r[k]) && r[k] in s)
            && (forall k :: 0 <= k < |s| && keep(s[k]) ==>
                  s[k] in r || forall i :: 0 <= i < |r| ==> le(r[i], s[k]))
            && (|r| < n ==> forall k :: 0 <= k < |s| && keep(s[k]) ==> s[k] in r)
  {
    var found := Filter(s, keep);
    var r := Top(found, le, n);
    SubMultisetMembers(r, found);
    SubMultisetMembers(found, s);
    forall k | 0 <= k < |r|
      ensures keep(r[k]) && r[k] in s
    {
      var m :| 0 <= m < |found| && found[m] == r[k];
    }
    forall k | 0 <= k < |s| && keep(s[k])
      ensures s[k] in r || forall i :: 0 <= i < |r| ==> le(r[i], s[k])
      ensures |r| < n ==> s[k] in r
    {
      var m :| 0 <= m < |found| && found[m] == s[k];
    }
  }

  lemma TakeSubMultiset<T>(s: seq<T>, n: nat)
    ensures multiset(Take(s, n)) <= multiset(s)
  {
    var r := Take(s, n);
    assert s == r + s[|r|..];
  }

  /** Taking the first `n` of a sorted list drops nothing that comes before
      what it keeps: every element left out is ordered after each one kept */
  lemma TopOfSorted<T(!new)>(s: seq<T>, le: (T, T) -> bool, n: nat)
    requires TotalPreorder(le)
    ensures var top := Take(Sort(s, le), n);
            forall k :: 0 <= k < |s| ==> s[k] in top || forall i :: 0 <= i < |top| ==> le(top[i], s[k])
  {
    var sorted := Sort(s, le);
    var top := Take(sorted, n);
    forall k | 0 <= k < |s|
      ensures s[k] in top || forall i :: 0 <= i < |top| ==> le(top[i], s[k])
    {
      assert s[k] in multiset(sorted);
      var j :| 0 <= j < |sorted| && sorted[j] == s[k];
      if j < |top| {
        assert top[j] == s[k];
      } else {
        forall i | 0 <= i < |top|
          ensures le(top[i], s[k])
        {
          assert top[i] == sorted[i];
        }
      }
    }
  }

  /** Every element of a sub-multiset occurs in the larger list */
  lemma SubMultisetMembers<T>(a: seq<T>, b: seq<T>)
    requires multiset(a) <= multiset(b)
    ensures forall k :: 0 <= k < |a| ==> a[k] in b
  {
    forall k | 0 <= k < |a|
      ensures a[k] in b
    {
      assert a[k] in multiset(a);
    }
  }

  /** Lists holding the same multiset hold the same elements */
  lemma SameMembers<T>(a: seq<T>, b: seq<T>)
    requires multiset(a) == multiset(b)
    ensures forall x :: x in a <==> x in b
  {
    forall x
      ensures x in a <==> x in b
    {
      assert x in a <==> x in multiset(a);
    }
  }

  /** Filtering with two predicates that agree on every element gives the
      same list */
  lemma {:induction false} FilterAgreeing<T>(s: seq<T>, p: T -> bool, q: T -> bool)
    requires forall k :: 0 <= k < |s| ==> p(s[k]) == q(s[k])
    ensures Filter(s, p) == Filter(s, q)
    decreases |s|
  {
    if |s| > 0 {
      FilterAgreeing(s[1..], p, q);
    }
  }

  /** Filtering keeps the full length exactly when it keeps everything */
  lemma {:induction false} FilterKeepsAllIff<T>(s: seq<T>, keep: T -> bool)
    ensures |Filter(s, keep)| == |s| <==> forall k :: 0 <= k < |s| ==> keep(s[k])
    decreases |s|
  {
    if |s| > 0 {
      FilterKeepsAllIff(s[1..], keep);
      assert forall k :: 1 <= k < |s| ==> s[k] == s[1..][k - 1];
    }
  }

  /** One step of a filter's length */
  lemma FilterLengthStep<T>(s: seq<T>, keep: T -> bool)
    requires |s| > 0
    ensures |Filter(s, keep)| == (if keep(s[0]) then 1 else 0) + |Filter(s[1..], keep)|
  {
  }
}

=== FILE: text.dfy ===
/** The JavaScript string operations the CRM relies on: `trim`, ASCII
    `toLowerCase`, `startsWith`, `includes`, `split` on one character,
    `join`, and the code-point order used to sort names. */
module Text {

  /** The characters JavaScript's `\s` class matches and `trim` strips */
  predicate IsSpace(c: char) {
    || c == ' ' || c == '\t' || c == '\n' || c == '\r' || c == '\U{B}' || c == '\U{C}'
    || c == '\U{A0}' || c == '\U{1680}' || ('\U{2000}' <= c <= '\U{200A}')
    || c == '\U{2028}' || c == '\U{2029}' || c == '\U{202F}' || c == '\U{205F}'
    || c == '\U{3000}' || c == '\U{FEFF}'
  }

  /** Only whitespace (or empty): `!s.trim()` holds */
  predicate IsBlank(s: string) {
    forall i :: 0 <= i < |s| ==> IsSpace(s[i])
  }

  /** Neither starts nor ends with whitespace */
  predicate IsTrimmed(s: string) {
    s == "" || (!IsSpace(s[0]) && !IsSpace(s[|s| - 1]))
  }

  function TrimStart(s: string): (r: string)
    ensures |r| <= |s| && r == s[|s| - |r|..]
    ensures r == "" || !IsSpace(r[0])
    ensures forall i :: 0 <= i < |s| - |r| ==> IsSpace(s[i])
    decreases |s|
  {
    if |s| > 0 && IsSpace(s[0]) then TrimStart(s[1..]) else s
  }

  function TrimEnd(s: string): (r: string)
    ensures |r| <= |s| && r == s[..|r|]
    ensures r == "" || !IsSpace(r[|r| - 1])
    ensures forall i :: |r| <= i < |s| ==> IsSpace(s[i])
    decreases |s|
  {
    if |s| > 0 && IsSpace(s[|s| - 1]) then TrimEnd(s[..|s| - 1]) else s
  }

  /** `r` is `s[i..j]` and everything cut from either side is whitespace */
  predicate CutFrom(s: string, r: string, i: int, j: int) {
    && 0 <= i <= j <= |s| && r == s[i..j]
    && (forall k :: 0 <= k < i ==> IsSpace(s[k]))
    && (forall k :: j <= k < |s| ==> IsSpace(s[k]))
  }

  /** `String.prototype.trim` */
  function Trim(s: string): (r: string)
    ensures IsTrimmed(r)
    ensures r == "" <==> IsBlank(s)
    ensures IsTrimmed(s) ==> r == s
    ensures exists i, j :: CutFrom(s, r, i, j)
  {
    TrimBothEnds(s);
    TrimIsInner(s);
    TrimEnd(TrimStart(s))
  }

  /** What `trim` keeps is a slice of the input with only whitespace cut
      from either side */
  lemma TrimIsInner(s: string)
    ensures exists i, j :: CutFrom(s, TrimEnd(TrimStart(s)), i, j)
  {
    var a := TrimStart(s);
    var r := TrimEnd(a);
    var i := |s| - |a|;
    var j := i + |r|;
    assert r == s[i..j] by {
      assert a == s[i..];
      assert r == a[..|r|];
    }
    assert forall k :: j <= k < |s| ==> IsSpace(s[k]) by {
      forall k | j <= k < |s|
        ensures IsSpace(s[k])
      {
        assert s[k] == a[k - i];
      }
    }
    assert CutFrom(s, r, i, j);
  }

  /** Only one trimmed slice of `s` cuts nothing but whitespace: the
      result of `trim` */
  lemma TrimDetermined(s: string, r: string, i: int, j: int)
    requires CutFrom(s, r, i, j) && IsTrimmed(r)
    ensures r == Trim(s)
  {
    var t := Trim(s);
    var i', j' :| CutFrom(s, t, i', j');
    if r == "" {
      EmptyCutIsBlank(s, i, j);
    } else {
      CutNotBlank(s, r, i, j);
      SameCut(s, r, i, j, t, i', j');
    }
  }

  lemma EmptyCutIsBlank(s: string, i: int, j: int)
    requires CutFrom(s, "", i, j)
    ensures IsBlank(s)
  {
    forall k | 0 <= k < |s|
      ensures IsSpace(s[k])
    {
      if k >= i {
        assert k >= j;
      }
    }
  }

  lemma CutNotBlank(s: string, r: string, i: int, j: int)
    requires CutFrom(s, r, i, j) && IsTrimmed(r) && r != ""
    ensures !IsBlank(s)
  {
    assert r[0] == s[i];
  }

  /** Two non-empty trimmed slices that cut only whitespace are equal */
  lemma SameCut(s: string, r: string, i: int, j: int, t: string, i': int, j': int)
    requires CutFrom(s, r, i, j) && IsTrimmed(r) && r != ""
    requires CutFrom(s, t, i', j') && IsTrimmed(t) && t != ""
    ensures r == t
  {
    assert r[0] == s[i] && r[|r| - 1] == s[j - 1];
    assert t[0] == s[i'] && t[|t| - 1] == s[j' - 1];
    FirstNonSpace(s, i, i');
    LastNonSpace(s, j, j');
  }

  /** Two positions each preceded only by whitespace and holding none are
      the same position */
  lemma FirstNonSpace(s: string, a: int, b: int)
    requires 0 <= a < |s| && 0 <= b < |s|
    requires !IsSpace(s[a]) && !IsSpace(s[b])
    requires forall k :: 0 <= k < a ==> IsSpace(s[k])
    requires forall k :: 0 <= k < b ==> IsSpace(s[k])
    ensures a == b
  {
  }

  /** Two ends each followed only by whitespace, just after a character that
      is not whitespace, are the same end */
  lemma LastNonSpace(s: string, a: int, b: int)
    requires 0 < a <= |s| && 0 < b <= |s|
    requires !IsSpace(s[a - 1]) && !IsSpace(s[b - 1])
    requires forall k :: a <= k < |s| ==> IsSpace(s[k])
    requires forall k :: b <= k < |s| ==> IsSpace(s[k])
    ensures a == b
  {
  }

  lemma TrimBothEnds(s: string)
    ensures IsTrimmed(TrimEnd(TrimStart(s)))
    ensures TrimEnd(TrimStart(s)) == "" <==> IsBlank(s)
    ensures IsTrimmed(s) ==> TrimEnd(TrimStart(s)) == s
  {
    var t := TrimStart(s);
    var r := TrimEnd(t);
    if r != "" {
      assert r[0] == t[0] == s[|s| - |t|];
    }
    if t != "" {
      assert !IsSpace(t[0]);
    }
    if IsTrimmed(s) && s != "" {
      assert t == s;
    }
  }

  lemma {:induction false} TrimStartSkipsSpace(c: char, s: string)
    requires IsSpace(c)
    ensures TrimStart([c] + s) == TrimStart(s)
  {
    assert ([c] + s)[1..] == s;
  }

  /** A leading whitespace character never survives `trim` */
  lemma TrimSkipsLeadingSpace(c: char, s: string)
    requires IsSpace(c)
    ensures Trim([c] + s) == Trim(s)
  {
    TrimStartSkipsSpace(c, s);
  }

  /** ASCII-only `toLowerCase` of one character */
  function LowerChar(c: char): (r: char)
    ensures 'A' <= c <= 'Z' ==> r as int == c as int + 32
    ensures !('A' <= c <= 'Z') ==> r == c
  {
    if 'A' <= c <= 'Z' then (c as int + 32) as char else c
  }

  function Lower(s: string): (r: string)
    ensures |r| == |s|
    ensures forall i :: 0 <= i < |s| ==> r[i] == LowerChar(s[i])
  {
    seq(|s|, i requires 0 <= i < |s| => LowerChar(s[i]))
  }

  lemma LowerIdempotent(s: string)
    ensures Lower(Lower(s)) == Lower(s)
  {
  }

  predicate StartsWith(s: string, prefix: string) {
    |prefix| <= |s| && s[..|prefix|] == prefix
  }

  predicate OccursAt(s: string, part: string, i: int) {
    0 <= i && i + |part| <= |s| && s[i..i + |part|] == part
  }

  /** `String.prototype.includes` */
  predicate Contains(s: string, part: string) {
    exists i :: 0 <= i <= |s| && OccursAt(s, part, i)
  }

  lemma StartsWithContains(s: string, prefix: string)
    requires StartsWith(s, prefix)
    ensures Contains(s, prefix)
  {
    assert OccursAt(s, prefix, 0);
  }

  /** Index of the first `c` in `s` */
  function IndexOf(s: string, c: char): (i: nat)
    requires c in s
    ensures i < |s| && s[i] == c && c !in s[..i]
  {
    if s[0] == c then 0 else 1 + IndexOf(s[1..], c)
  }

  lemma {:induction false} IndexOfAfter(a: string, c: char, b: string)
    requires c !in a
    ensures c in a + [c] + b && IndexOf(a + [c] + b, c) == |a|
    decreases |a|
  {
    var s := a + [c] + b;
    assert s[|a|] == c;
    if |a| > 0 {
      assert s[1..] == a[1..] + [c] + b;
      IndexOfAfter(a[1..], c, b);
    }
  }

  /** `s.split(sep)` for a one-character separator: always at least one
      piece, and `"".split(",")` is `[""]` */
  function Split(s: string, sep: char): (r: seq<string>)
    ensures |r| >= 1
    ensures forall k :: 0 <= k < |r| ==> sep !in r[k]
    decreases |s|
  {
    if sep !in s then [s]
    else
      var i := IndexOf(s, sep);
      [s[..i]] + Split(s[i + 1..], sep)
  }

  /** `parts.join(sep)` */
  function Join(parts: seq<string>, sep: string): string
  {
    if |parts| == 0 then ""
    else if |parts| == 1 then parts[0]
    else parts[0] + sep + Join(parts[1..], sep)
  }

  predicate NoneContains(parts: seq<string>, c: char) {
    forall k :: 0 <= k < |parts| ==> c !in parts[k]
  }

  /** Splitting a joined list gives back its parts when none contains the
      separator */
  lemma {:induction false} SplitJoin(parts: seq<string>, sep: char)
    requires |parts| >= 1
    requires NoneContains(parts, sep)
    ensures Split(Join(parts, [sep]), sep) == parts
    decreases |parts|
  {
    if |parts| > 1 {
      var rest := Join(parts[1..], [sep]);
      var s := parts[0] + [sep] + rest;
      assert Join(parts, [sep]) == s;
      IndexOfAfter(parts[0], sep, rest);
      assert s[..|parts[0]|] == parts[0];
      assert s[|parts[0]| + 1..] == rest;
      SplitJoin(parts[1..], sep);
    }
  }

  /** Joining the pieces of a split gives back the string */
  lemma {:induction false} JoinSplit(s: string, sep: char)
    ensures Join(Split(s, sep), [sep]) == s
    decreases |s|
  {
    if sep in s {
      var i := IndexOf(s, sep);
      JoinSplit(s[i + 1..], sep);
      var tail := Split(s[i + 1..], sep);
      assert Split(s, sep) == [s[..i]] + tail;
      JoinCons(s[..i], tail, [sep]);
      assert s == s[..i] + [sep] + s[i + 1..];
    }
  }

  /** One piece in front of a non-empty list joins in front of the rest */
  lemma JoinCons(x: string, tail: seq<string>, sep: string)
    requires |tail| >= 1
    ensures Join([x] + tail, sep) == x + sep + Join(tail, sep)
  {
    assert ([x] + tail)[1..] == tail;
  }

  /** Code-point lexicographic order, strict */
  predicate Less(a: string, b: string)
    decreases |a|
  {
    if |b| == 0 then false
    else if |a| == 0 then true
    else if a[0] != b[0] then a[0] < b[0]
    else Less(a[1..], b[1..])
  }

  lemma {:induction false} LessIrreflexive(a: string)
    ensures !Less(a, a)
    decreases |a|
  {
    if |a| > 0 {
      LessIrreflexive(a[1..]);
    }
  }

  lemma {:induction false} LessTrichotomy(a: string, b: string)
    ensures a == b || Less(a, b) || Less(b, a)
    decreases |a|
  {
    if |a| > 0 && |b| > 0 && a[0] == b[0] {
      LessTrichotomy(a[1..], b[1..]);
      if a[1..] == b[1..] {
        assert a == [a[0]] + a[1..] && b == [b[0]] + b[1..];
      }
    }
  }

  lemma {:induction false} LessAsymmetric(a: string, b: string)
    requires Less(a, b)
    ensures !Less(b, a)
    decreases |a|
  {
    if |a| > 0 && a[0] == b[0] {
      LessAsymmetric(a[1..], b[1..]);
    }
  }

  lemma {:induction false} LessTransitive(a: string, b: string, c: string)
    requires Less(a, b) && Less(b, c)
    ensures Less(a, c)
    decreases |a|
  {
    if |a| > 0 && a[0] == b[0] && b[0] == c[0] {
      LessTransitive(a[1..], b[1..], c[1..]);
    }
  }
}
